=== FILE: README.md ===
# Events CRUD service: handlers and repositories in Dafny

This project models the core of a small Go service. The service stores
**movies** and **theatre performances** in two MongoDB collections and
exposes them over HTTP through chi handlers. The model has three layers.

- **The document store.** A collection is a sequence of BSON-like
  documents in natural (insertion) order.
  - `Find` supports skip and limit, with the driver's rules:
    - a negative skip is an error;
    - a limit of 0 means no limit;
    - a negative limit means its magnitude.
  - The other operations are `FindOne`, `InsertOne` with a generated
    `ObjectID`, `UpdateOne` with `$set`, and `DeleteOne`.
  - Decoding is per field into the domain structs.
  - Reading a cursor is a loop that stops at the first document that fails
    to decode.
  - Driver failures are `fault` parameters. The identifier the driver
    generates is also a parameter.
- **The repositories** (`MovieRepository`, `TheatreRepository`). They
  follow the Go code branch for branch:
  - the offset `(page - 1) * pageSize` is computed in Go's 64-bit `int`;
  - movie create leaves the tags out;
  - a partial update sets only the non-empty fields;
  - "not found" is reported when MongoDB modified nothing;
  - update re-reads the document after writing;
  - delete reports "not found" when nothing was deleted;
  - search is a case-insensitive OR over two fields;
  - the tag filter is any-of (`$in`).
- **The HTTP handlers** (`MovieHandlers`, `TheatreHandlers`). Each handler
  is a pure function of:
  - the query string;
  - the path identifier;
  - the decoded body (`None` when the JSON did not decode);
  - the service operations, passed as function values.

  It returns the response together with the list of service calls made.
  This makes "refused before any service call" provable. The response
  writer is modelled as `net/http` behaves:
  - the first status written wins;
  - bodies accumulate.

  This captures the performance get-by-id handler, which answers 404
  followed by a JSON `null`.

Other supporting modules:

| module | contents |
|---|---|
| `Pages` | the page parameter, `prev`/`next`/`first`/`last` links and the page count |
| `Strconv` | Go's `strconv.Atoi` and `Itoa` on 64-bit `int` |
| `Int64` | two's-complement wrap-around |
| `ObjectIds` | `ObjectIDFromHex` and `Hex` |
| `Scenarios` | lemmas that run handlers on top of the repositories end to end |

## Model

| member | source | states |
|---|---|---|
| `Pages.ParsePage` | internal/delivery/handlers/movie_handlers.go:30-41 | An absent page is 1. Otherwise the page is accepted exactly when `Atoi` succeeds with a value of at least 1, and the accepted page is the value `Atoi` read. |
| `Pages.ParsePrintedPage` | internal/delivery/handlers/theatre_handlers.go:29-37 | Every page from 1 to the largest `int`, printed in decimal, is read back as itself. |
| `Pages.ParseRejectsLowPages` | internal/delivery/handlers/theatre_handlers.go:31-35 | Every printed page number below 1 is rejected. |
| `Strconv.AtoiItoa` | internal/delivery/handlers/movie_handlers.go:35 | `Atoi` inverts `Itoa` on every 64-bit integer. |
| `Strconv.AtoiRejectsNonDigit` | internal/delivery/handlers/movie_handlers.go:35-36 | A text with a non-digit character after the optional sign is rejected. |
| `Pages.PrevPage` | internal/delivery/handlers/theatre_handlers.go:55-60 | The previous page is null exactly on page 1. Otherwise it is the page before. |
| `Pages.NextPage` | internal/delivery/handlers/movie_handlers.go:57-62 | A next page exists exactly when the page came back full, whatever the total. It is `page + 1`, wrapping to the smallest `int` after the largest. |
| `Pages.TotalPages` | internal/delivery/handlers/theatre_handlers.go:46 | The page count is the least `n` with `n * 10 >= total`. |
| `Pages.TotalPagesUnique` | internal/delivery/handlers/theatre_handlers.go:46 | Any `n` with `n * 10 >= total > (n - 1) * 10` is the page count, so the ceiling is characterised uniquely. |
| `Pages.TotalPagesPositive` | internal/delivery/handlers/theatre_handlers.go:46 | There is at least one page exactly when something is stored, and none for an empty collection. |
| `Pages.FirstPage` | internal/delivery/handlers/theatre_handlers.go:69-74 | The first page is 1 exactly when there is at least one page, otherwise null. |
| `Pages.LastPage` | internal/delivery/handlers/theatre_handlers.go:76-81 | The last page is the page count when that is positive. Otherwise it is the first page, which is then null. |
| `Pages.Links` | internal/delivery/handlers/movie_handlers.go:50-69 | The movie envelope carries only the current, previous and next page, each as the rules above describe. |
| `Pages.BoundedLinks` | internal/delivery/handlers/theatre_handlers.go:55-89 | The performance envelope also carries the first and last page, derived from the page count. |
| `Pages.NextPastLastPage` | internal/delivery/handlers/theatre_handlers.go:62-67 | When the total is a multiple of 10, the full last page still links to a next page beyond the last. |
| `Http.WritesFold` | pkg/lib/utils/utils.go:16-35 | After any sequence of writes, the status is the first one ever written, and the body is every encoded value in write order. |
| `Http.FirstStatusWins` | internal/delivery/handlers/theatre_handlers.go:116-120 | Any two writes leave the first status with both bodies, as the general fold over writes predicts. This is how the performance get-by-id handler answers 404 and then `null`. |
| `ObjectIds.FromHex` | internal/delivery/handlers/movie_handlers.go:83-88 | An identifier is accepted exactly when it is 24 hexadecimal digits of either case. Each byte is the value of its digit pair. |
| `ObjectIds.Hex` | internal/delivery/handlers/movie_handlers.go:83 | Printing gives 24 lower-case digits, high nibble first, and parsing them gives the identifier back. |
| `ObjectIds.HexOfParsed` | internal/delivery/handlers/movie_handlers.go:83 | Parsing then printing gives the input text lower-cased. |
| `ObjectIds.HexDigitRoundTrip` | internal/delivery/handlers/movie_handlers.go:83 | Each printed digit of a parsed identifier is the lower-cased input digit. |
| `Int64.Wrap` | internal/repository/mongodb/movie_repository.go:27 | The wrapped value is the unique 64-bit integer congruent to the input modulo 2^64, and values already in range are unchanged. |
| `Int64.WrapUnique` | internal/repository/mongodb/movie_repository.go:27 | Any in-range value congruent to `x` is `Wrap(x)`. |
| `Store.Offset` | internal/repository/mongodb/movie_repository.go:27-32 | The skip is a 64-bit value. It equals `(page - 1) * pageSize` whenever that product fits. |
| `Store.Window` | internal/repository/mongodb/movie_repository.go:31-33 | Skip and limit select the consecutive stored elements from the skip onward. There are at most `limit` of them, or all the rest for limit 0. |
| `Store.MatchingMembers` | internal/repository/mongodb/movie_repository.go:193-200 | The filter keeps exactly the stored documents that match it. |
| `Store.MatchingSingle` | internal/repository/mongodb/movie_repository.go:193-200 | A single document is kept exactly when it matches. |
| `Store.MatchingAppend` | internal/repository/mongodb/movie_repository.go:193-200 | Selecting from two runs of documents gives the selection from the first, then the selection from the second. So selection keeps collection order and every repeat. |
| `Store.MatchingEverything` | internal/repository/mongodb/movie_repository.go:29 | The empty filter `bson.M{}` keeps every document, in order. |
| `Store.FirstMatch` | internal/repository/mongodb/movie_repository.go:56-60 | The first matching position, or none exactly when nothing matches. |
| `Store.FirstMatchById` | internal/repository/mongodb/movie_repository.go:56-60 | With unique identifiers, the document carrying an id is the first match of the `_id` filter. |
| `Store.Find` | internal/repository/mongodb/movie_repository.go:31-39 | A fault or a negative skip is an error. Otherwise the result is the skip/limit window of the matching documents in collection order. Every result is a stored, matching document, and at most the limit's magnitude are returned. |
| `Store.FindOne` | internal/repository/mongodb/movie_repository.go:60-64 | "No documents" is reported exactly when nothing matches. A found document is the first stored document that matches. |
| `Store.DecodeAll` | internal/repository/mongodb/movie_repository.go:42-52 | The list decodes exactly when every document decodes, element by element. Otherwise the error is that of the first failing document. |
| `Store.ReadCursor` | internal/repository/mongodb/movie_repository.go:42-52 | The cursor loop appends each decoded document and stops at the first decode failure. It returns the same result as `DecodeAll`. |
| `Store.FirstFailureUnique` | internal/repository/mongodb/movie_repository.go:45-48 | The error returned is the error of the first document that fails to decode. |
| `Store.FindDecodedSound` | internal/repository/mongodb/movie_repository.go:35-52 | Every listed entity is the decoding of some stored document that matches the filter. |
| `Store.FindDecodedPage` | internal/repository/mongodb/movie_repository.go:193-220 | For any filter, a page fails exactly when one of the selected documents in its window does not decode. Otherwise it is that window, decoded in order. Only the page's documents are read. |
| `Store.FindDecodedEverything` | internal/repository/mongodb/movie_repository.go:29-52 | With no filter, the same holds for the stored documents themselves. |
| `Store.InsertOne` | internal/repository/mongodb/movie_repository.go:84-94 | On success the document is appended under the generated `_id`. A duplicate identifier or a fault changes nothing. Identifiers stay unique. |
| `Store.UpdateOne` | internal/repository/mongodb/movie_repository.go:135-146 | At most one document matches. It is modified exactly when the `$set` changes it. Otherwise the store is unchanged. |
| `Store.DeleteOne` | internal/repository/mongodb/movie_repository.go:173-183 | The count is 0 exactly when nothing matches, and the store is then unchanged. A count of 1 removes the first match. |
| `Store.RemovalKeepsValid` | internal/repository/mongodb/movie_repository.go:175 | Removing one document keeps every remaining identifier present and unique. |
| `Store.AppendedIsFound` | internal/repository/mongodb/movie_repository.go:84 | A document appended under a fresh identifier is the one a lookup by that identifier finds. |
| `Store.DeleteOneById` | internal/repository/mongodb/movie_repository.go:172-186 | Deleting by id removes exactly the documents with that id and keeps every other one. |
| `MovieRepository.GetAllMoviesPage` | internal/repository/mongodb/movie_repository.go:26-53 | When the offset fits, the list is the decoded stored movies from `(page - 1) * pageSize` on, at most `pageSize` of them. It fails exactly when one of those movies does not decode. |
| `MovieRepository.HugePageWrapsAround` | internal/repository/mongodb/movie_repository.go:27-33 | Page 1844674407370955163 wraps the offset to 4 and lists movies from the fifth on. |
| `MovieRepository.GetMovieByID` | internal/repository/mongodb/movie_repository.go:55-69 | An absent id gives no movie and no error. A found movie carries the id and is the decoding of the stored document. |
| `MovieRepository.CreateMovie` | internal/repository/mongodb/movie_repository.go:71-99 | On success the movie has the generated id and every request field except the tags, which are empty. A failure leaves the store unchanged. |
| `MovieRepository.CreateThenGet` | internal/repository/mongodb/movie_repository.go:71-99 | Reading the created id back gives the movie that create returned. |
| `MovieRepository.UpdateFields` | internal/repository/mongodb/movie_repository.go:102-133 | The `$set` holds exactly the non-empty strings, the non-zero date and the non-empty lists, each under its key. |
| `MovieRepository.SetMerges` | internal/repository/mongodb/movie_repository.go:102-137 | After the `$set`, the stored movie reads as the old one with only the given fields replaced. |
| `MovieRepository.AssignedAlreadyStored` | internal/repository/mongodb/movie_repository.go:102-133 | If merging changes nothing, every field the request sets is already stored with that value. |
| `MovieRepository.SetIsNoOp` | internal/repository/mongodb/movie_repository.go:102-146 | The `$set` leaves the document unchanged exactly when the merged movie equals the stored one. |
| `MovieRepository.UpdateMovie` | internal/repository/mongodb/movie_repository.go:101-170 | A successful update returns the movie with the requested id, equal to what a fresh read returns afterwards. |
| `MovieRepository.UpdateMovieAbsent` | internal/repository/mongodb/movie_repository.go:143-146 | Updating an absent id reports "movie not found" and changes nothing. |
| `MovieRepository.UpdateMovieMerges` | internal/repository/mongodb/movie_repository.go:101-170 | Updating a stored movie with a request that changes it returns the merged movie. Only that document changes. |
| `MovieRepository.UpdateMovieNoOpIsNotFound` | internal/repository/mongodb/movie_repository.go:137-146 | An update that changes nothing reports "movie not found" for a stored movie too. |
| `MovieRepository.DeleteMovie` | internal/repository/mongodb/movie_repository.go:172-186 | Delete succeeds exactly when the id is stored. Otherwise it reports "movie not found" and changes nothing. |
| `MovieRepository.DeleteMovieRemovesExactly` | internal/repository/mongodb/movie_repository.go:172-186 | After a delete the id is gone and every other document is still stored. |
| `MovieRepository.DeleteMovieTwice` | internal/repository/mongodb/movie_repository.go:181-183 | A second delete of the same id reports "movie not found". |
| `MovieRepository.SearchSelects` | internal/repository/mongodb/movie_repository.go:193-198 | For a non-empty query, a movie matches exactly when its name or original name contains the query, ignoring ASCII case. For the empty query it matches exactly when either key holds a string. |
| `MovieRepository.EmptySearchSelectsEncoded` | internal/repository/mongodb/movie_repository.go:193-198 | The empty query selects every movie document the repository writes. |
| `MovieRepository.SearchMoviesPage` | internal/repository/mongodb/movie_repository.go:188-221 | A search page is the window at `(page - 1) * pageSize` of the selected movies, in collection order, at most `pageSize` of them. It fails exactly when one of those does not decode. |
| `MovieRepository.SearchMoviesSound` | internal/repository/mongodb/movie_repository.go:188-221 | Every found movie is stored and has the query in its name or original name. |
| `MovieRepository.TagFilterSelects` | internal/repository/mongodb/movie_repository.go:226-228 | A movie matches the tag filter exactly when one of its tags is among the requested ones. |
| `MovieRepository.FilterByTagsPage` | internal/repository/mongodb/movie_repository.go:223-252 | A tag-filter page is the window at `(page - 1) * pageSize` of the movies sharing a requested tag, in collection order, at most `pageSize` of them. It fails exactly when one of those does not decode. |
| `MovieRepository.FilterByTagsSound` | internal/repository/mongodb/movie_repository.go:223-252 | Every filtered movie carries at least one requested tag. |
| `TheatreRepository.GetAllPerformancesPage` | internal/repository/mongodb/theatre_repository.go:26-53 | When the offset fits, the list is the decoded stored performances from `(page - 1) * pageSize` on, at most `pageSize` of them. It fails exactly when one of those performances does not decode. |
| `TheatreRepository.GetPerformanceByID` | internal/repository/mongodb/theatre_repository.go:55-69 | An absent id gives no performance and no error. A found one carries the id and is the decoding of the stored document. |
| `TheatreRepository.CreatePerformance` | internal/repository/mongodb/theatre_repository.go:71-98 | On success the performance has the generated id and all eight request fields, tags included. A failure changes nothing. |
| `TheatreRepository.CreateThenGet` | internal/repository/mongodb/theatre_repository.go:71-98 | Reading the created id back gives the performance that create returned. |
| `TheatreRepository.UpdateFields` | internal/repository/mongodb/theatre_repository.go:101-126 | The `$set` holds exactly the non-empty strings and lists, each under its key. |
| `TheatreRepository.SetMerges` | internal/repository/mongodb/theatre_repository.go:101-130 | After the `$set`, the stored performance reads as the old one with only the given fields replaced. |
| `TheatreRepository.AssignedAlreadyStored` | internal/repository/mongodb/theatre_repository.go:101-126 | If merging changes nothing, every field the request sets is already stored with that value. |
| `TheatreRepository.SetIsNoOp` | internal/repository/mongodb/theatre_repository.go:101-138 | The `$set` leaves the document unchanged exactly when the merged performance equals the stored one. |
| `TheatreRepository.UpdatePerformance` | internal/repository/mongodb/theatre_repository.go:100-158 | A successful update returns the performance with the requested id, equal to what a fresh read returns afterwards. |
| `TheatreRepository.UpdatePerformanceAbsent` | internal/repository/mongodb/theatre_repository.go:135-138 | Updating an absent id reports "performance not found" and changes nothing. |
| `TheatreRepository.UpdatePerformanceMerges` | internal/repository/mongodb/theatre_repository.go:100-158 | Updating a stored performance with a request that changes it returns the merged performance. |
| `TheatreRepository.UpdatePerformanceNoOpIsNotFound` | internal/repository/mongodb/theatre_repository.go:129-138 | An update that changes nothing reports "performance not found" for a stored performance too. |
| `TheatreRepository.DeletePerformance` | internal/repository/mongodb/theatre_repository.go:160-174 | Delete succeeds exactly when the id is stored. Otherwise it reports "performance not found" and changes nothing. |
| `TheatreRepository.DeletePerformanceRemovesExactly` | internal/repository/mongodb/theatre_repository.go:160-174 | After a delete the id is gone and every other document is still stored. |
| `TheatreRepository.SearchSelects` | internal/repository/mongodb/theatre_repository.go:181-186 | For a non-empty query, a performance matches exactly when its name or description contains the query, ignoring ASCII case. For the empty query it matches exactly when either key holds a string. |
| `TheatreRepository.EmptySearchSelectsEncoded` | internal/repository/mongodb/theatre_repository.go:181-186 | The empty query selects every performance document the repository writes. |
| `TheatreRepository.SearchPerformancesPage` | internal/repository/mongodb/theatre_repository.go:176-209 | A search page is the window at `(page - 1) * pageSize` of the selected performances, in collection order, at most `pageSize` of them. It fails exactly when one of those does not decode. |
| `TheatreRepository.SearchPerformancesSound` | internal/repository/mongodb/theatre_repository.go:176-209 | Every found performance is stored and has the query in its name or description. |
| `Domain.EncodeMovie` | internal/domain/movie.go:22-34 | The document written for a movie decodes to the same movie. |
| `Domain.DecodeStoredMovie` | internal/domain/movie.go:22-34 | Movie fields stored under an `_id` decode to the movie with that id. |
| `Domain.EncodePerformance` | internal/domain/theatre.go:16-26 | The document written for a performance decodes to the same performance. |
| `Domain.DecodeStoredPerformance` | internal/domain/theatre.go:16-26 | Performance fields stored under an `_id` decode to the performance with that id. |
| `Bson.WithId` | internal/domain/movie.go:23 | The `omitempty` id is written exactly when it is non-zero, reads back as itself, and adds nothing else. |
| `MovieHandlers.GetAllMoviesHandler` | internal/delivery/handlers/movie_handlers.go:29-78 | A bad page is 400 "Invalid request format" with no service call. Otherwise one call for ten movies is made; an error is 500 and a list is 200 with the basic links. |
| `MovieHandlers.GetMovieHandler` | internal/delivery/handlers/movie_handlers.go:80-103 | A bad id is 400 with no call. An absent movie is 404 "Movie not found", an error is 500, and a found movie is 200. |
| `MovieHandlers.CreateMovieHandler` | internal/delivery/handlers/movie_handlers.go:105-123 | A body that does not decode is 400. A service error is 500 with "Error creating movie: " and the error. Success is 201 with the movie. |
| `MovieHandlers.UpdateMovieHandler` | internal/delivery/handlers/movie_handlers.go:125-160 | The id is checked before the body. Every service error, "movie not found" included, is 500 with "Error updating movie: " and the error. No update is ever answered 404. |
| `MovieHandlers.DeleteMovie` | internal/delivery/handlers/movie_handlers.go:162-189 | The answer is 404 "Movie not found" exactly when the service fails with "movie not found". Any other failure is 500, and success is 200 "Movie deleted successfully". |
| `MovieHandlers.SearchMoviesHandler` | internal/delivery/handlers/movie_handlers.go:191-240 | A bad page is 400 with no call. Otherwise one search for the query text is made, and a list is 200 with the basic links. |
| `MovieHandlers.FilterByTagsHandler` | internal/delivery/handlers/movie_handlers.go:242-295 | The page is checked first, then an empty tag list is 400 with no service call. Otherwise one filter call with all tags is made. |
| `TheatreHandlers.GetAllPerformances` | internal/delivery/handlers/theatre_handlers.go:25-97 | A bad page is 400 with no call. Then the count is asked for, with an error giving 500. Then one page is asked for, and a list is 200 with links bounded by the ceiling of the count over ten. |
| `TheatreHandlers.GetPerformanceByID` | internal/delivery/handlers/theatre_handlers.go:99-121 | A bad id is 400 with no call. An absent performance is status 404 with the error body followed by `null`. |
| `TheatreHandlers.CreatePerformanceHandler` | internal/delivery/handlers/theatre_handlers.go:123-141 | A body that does not decode is 400. An error is 500 with the movie-worded "Error creating movie: " text. Success is 201. |
| `TheatreHandlers.UpdatePerformanceHandler` | internal/delivery/handlers/theatre_handlers.go:143-171 | The answer is 404 "Performance not found" exactly when the service fails with "performance not found". Every other failure is 500 "Internal server error". |
| `TheatreHandlers.DeletePerformance` | internal/delivery/handlers/theatre_handlers.go:173-200 | The answer is 404 exactly when the service fails with "performance not found". Any other failure is 500, and success is 200 "Performance deleted successfully". |
| `TheatreHandlers.SearchPerfomancesHandler` | internal/delivery/handlers/theatre_handlers.go:202-276 | Page, then count, then search. The list is answered under the key "movies" with bounded links. |
| `TheatreHandlers.FilterPerformancesByTagsHandler` | internal/delivery/handlers/theatre_handlers.go:278-356 | The count call comes before the check for an empty tag list, so an empty list is 400 after exactly one count call. |
| `Scenarios.SecondPageOfFifteenMovies` | internal/delivery/handlers/movie_handlers.go:29-78 | Over fifteen stored movies, `?page=2` lists the last five with previous page 1 and no next page. |
| `Scenarios.UpdateOfAbsentMovieIs500` | internal/delivery/handlers/movie_handlers.go:142-157 | Updating an absent movie through the handler and repository is answered 500 "Error updating movie: movie not found". |
| `Scenarios.UnchangingUpdateOfStoredMovieIs500` | internal/repository/mongodb/movie_repository.go:143-146 | An update that changes nothing on a stored movie is also answered 500 with "movie not found". |
| `Scenarios.DeleteOfAbsentMovieIs404` | internal/delivery/handlers/movie_handlers.go:172-181 | Deleting an absent movie end to end is 404 "Movie not found". |
| `Scenarios.GetOfAbsentMovieIs404` | internal/delivery/handlers/movie_handlers.go:97-100 | Getting an absent movie end to end is 404 "Movie not found". |
| `Scenarios.GetOfAbsentPerformanceIs404ThenNull` | internal/delivery/handlers/theatre_handlers.go:116-120 | Getting an absent performance end to end is 404 with the error body and then `null`. |
| `Scenarios.UpdateOfAbsentPerformanceIs404` | internal/delivery/handlers/theatre_handlers.go:160-168 | Updating an absent performance end to end is 404 "Performance not found". |
| `Scenarios.TenPerformances` | internal/delivery/handlers/theatre_handlers.go:62-81 | With ten performances, page 1 links to a page 2 that is empty, and both report first and last page 1. |

## Left out

- Logging (`slog`), `context`, closing cursors, response headers such as
  `Content-Type`, and the wire form of JSON: these are I/O. A nil slice
  (encoded as `null`) and an empty one are not told apart.
- JSON decoding of request bodies: the body is an input that is either a
  decoded request or `None`.
- Routers, services, `main`, configuration and the database connection:
  they only wire the pieces together.
- The movie tag filter's names do not line up. The handler calls
  `MovieService.FilterByTags`, but the service only has
  `FilterMoviesByTags`, and the store implementation only has
  `FilterByTags`. So that code as written would not compile. The handler
  is modelled with the repository's `FilterByTags`.
- The performance get-by-id handler calls
  `h.TheatreService.TheatreService.GetPerformanceByID`. That compiles: the
  service's field named `TheatreService` holds the repository, so the
  handler calls the repository directly and skips the service. The service
  method only forwards the call, so the result is the same, and the model
  passes the repository's `GetPerformanceByID`.
- `GetTotalPerformancesCount` and the performance tag filter have no
  implementation in the repositories. Their results are inputs to the
  handlers, and no semantics is given to them.
- `error.MissingTags` is not defined in `pkg/lib/error/error.go`. It is a
  message of its own whose text is not modelled.
- `MovieRepository.SearchSelects`: the `$regex` with option `i` is modelled
  as an ASCII case-insensitive substring test on the query taken
  literally. Regex metacharacters, Unicode case folding and invalid
  patterns are not modelled. An invalid pattern is one more
  server-side error, covered by the `fault` parameter.
- `TheatreRepository.SearchSelects`: weaker than the source in the same
  way as the movie search.
- `Pages.TotalPages`: `math.Ceil` on `float64` is modelled as the exact
  integer ceiling. The two agree for every count below 2^53.
- `Bson.Readable`: a value of another kind than the field's is treated as
  a decode error, and so is every decode that depends on it
  (`Domain.DecodeMovie`, `Domain.DecodePerformance` and the "fails exactly
  when one of those does not decode" clauses of the page lemmas). The Go
  driver's default registry does convert some kinds. An object identifier
  under a string field decodes as its hexadecimal text. A date string,
  64-bit integer or timestamp under `releaseDate` decodes as a time. A
  hexadecimal string under `_id` decodes as an identifier. The model has no
  value case for 64-bit integers or timestamps, and these conversions are
  left out. This service only stores documents it wrote itself, with every
  field in its declared kind (`Domain.EncodeMovie`,
  `Domain.EncodePerformance`), so its own documents never reach them.
- `Bson.Time`: `time.Time` is an abstract instant with `IsZero`. The
  millisecond truncation BSON applies to dates is not modelled.
- The update-then-refetch race: another client could change or delete the
  document between the `$set` and the re-read, and a nil result would then
  be dereferenced. This is a concurrency issue. The model runs the re-read
  on the state the update left, with its own `fault` parameter for errors.
- An empty `$set`, sent when a request sets no field, is rejected by older
  MongoDB servers. It is modelled as a no-op, so it reports "not found".
- Natural order is taken to be insertion order.
- Driver error texts (duplicate key, invalid skip) are stand-ins. Only
  their presence matters to the handlers.
- The log line `net/http` prints for a superfluous `WriteHeader` is not
  modelled.

=== FILE: bson.dfy ===
/**
 Stored documents, reduced to the keys and value kinds the two collections
 use. A document is a map from key to value; keys the code never reads are
 left out because decoding ignores them.
 */
module Bson {
  import opened Outcomes
  import opened ObjectIds

  /** The document keys used by the movie and performance collections. */
  datatype Field =
    | Id | Cover | Name | OriginalName | Description | Duration
    | ReleaseDate | Age | Categories | Tags | Media
  {
    /** The key as stored, taken from the `bson` struct tags of the domain types. */
    function Key(): string {
      match this
      case Id => "_id"
      case Cover => "cover"
      case Name => "name"
      case OriginalName => "originalName"
      case Description => "description"
      case Duration => "duration"
      case ReleaseDate => "releaseDate"
      case Age => "age"
      case Categories => "categories"
      case Tags => "tags"
      case Media => "media"
    }
  }

  const AllFields: set<Field> :=
    {Id, Cover, Name, OriginalName, Description, Duration, ReleaseDate, Age, Categories, Tags, Media}

  /** `time.Time`, kept abstract: an instant counted from Go's zero time. */
  datatype Time = Time(ticks: int) {

    /** `Time.IsZero`: the zero value, which a JSON body without the field decodes to. */
    predicate IsZero() {
      ticks == 0
    }
  }

  const ZeroTime: Time := Time(0)

  /** The value kinds a document can hold under one of the keys above. */
  datatype Value =
    | ObjectIdValue(id: ObjectId)
    | Text(text: string)
    | TextArray(items: seq<string>)
    | DateTime(time: Time)
    | Null
    | Int32(number: int)

  type Document = map<Field, Value>

  /** The text of a decode error; which field failed is not modelled. */
  const DecodeFailure: string := "error decoding document"

  /** The value kinds the struct fields are declared with. */
  datatype Kind = IdKind | StringKind | StringsKind | TimeKind

  function KindOf(f: Field): Kind {
    match f
    case Id => IdKind
    case ReleaseDate => TimeKind
    case Categories | Tags | Media => StringsKind
    case _ => StringKind
  }

  predicate HasKind(v: Value, k: Kind) {
    match k
    case IdKind => v.ObjectIdValue?
    case StringKind => v.Text?
    case StringsKind => v.TextArray?
    case TimeKind => v.DateTime?
  }

  /**
   Whether decoding can fill the struct field for `f`: a missing key or a
   null leaves the Go zero value, and a value of the declared kind is
   copied. Every other value is taken to be a decode error; the driver's
   conversions between kinds are not modelled.
   */
  predicate Readable(d: Document, f: Field) {
    f !in d || d[f].Null? || HasKind(d[f], KindOf(f))
  }

  /** The key holds a string, possibly empty; a missing key or a null does not. */
  predicate HoldsText(d: Document, f: Field) {
    f in d && d[f].Text?
  }

  /** The decoded value of a string field, the empty string when missing or null. */
  function StringAt(d: Document, f: Field): string {
    if f in d && d[f].Text? then d[f].text else ""
  }

  /** The decoded value of a list field, the empty list when missing or null. */
  function StringsAt(d: Document, f: Field): seq<string> {
    if f in d && d[f].TextArray? then d[f].items else []
  }

  /** The decoded value of a time field, the zero time when missing or null. */
  function TimeAt(d: Document, f: Field): Time {
    if f in d && d[f].DateTime? then d[f].time else ZeroTime
  }

  /** The decoded `_id`, the zero identifier when missing or null. */
  function IdAt(d: Document): ObjectId {
    if Id in d && d[Id].ObjectIdValue? then d[Id].id else Zero
  }

  /** The `_id` entry an encoder writes: none for the zero identifier (`omitempty`). */
  function WithId(fields: Document, id: ObjectId): (d: Document)
    requires Id !in fields
    ensures Readable(d, Id) && IdAt(d) == id
    ensures d - {Id} == fields
    ensures Id in d <==> !id.IsZero()
    ensures id.IsZero() ==> d == fields
    ensures !id.IsZero() ==> d == fields[Id := ObjectIdValue(id)]
  {
    if id.IsZero() then
      assert id == Zero;
      fields
    else fields[Id := ObjectIdValue(id)]
  }

  // ---------------------------------------------------------------------------
  // Reading a document after a `$set`

  /** The partial-update rule: a non-empty value replaces the stored one, an empty value keeps it. */
  function PreferText(given: string, stored: string): string {
    if given != "" then given else stored
  }

  function PreferTexts(given: seq<string>, stored: seq<string>): seq<string> {
    if |given| > 0 then given else stored
  }

  function PreferTime(given: Time, stored: Time): Time {
    if !given.IsZero() then given else stored
  }

  /** A `$set` without an `_id` entry leaves the identifier as it was. */
  lemma SetKeepsId(d: Document, u: Document)
    requires Id !in u
    ensures Readable(d + u, Id) == Readable(d, Id) && IdAt(d + u) == IdAt(d)
  {
  }

  /** A `$set` of a non-empty string field makes it read back; an absent entry keeps the stored one. */
  lemma SetText(d: Document, u: Document, f: Field, stored: string, given: string)
    requires KindOf(f) == StringKind && Readable(d, f) && StringAt(d, f) == stored
    requires (f in u <==> given != "") && (f in u ==> u[f] == Text(given))
    ensures Readable(d + u, f) && StringAt(d + u, f) == PreferText(given, stored)
  {
  }

  lemma SetTexts(d: Document, u: Document, f: Field, stored: seq<string>, given: seq<string>)
    requires KindOf(f) == StringsKind && Readable(d, f) && StringsAt(d, f) == stored
    requires (f in u <==> |given| > 0) && (f in u ==> u[f] == TextArray(given))
    ensures Readable(d + u, f) && StringsAt(d + u, f) == PreferTexts(given, stored)
  {
  }

  lemma SetTime(d: Document, u: Document, f: Field, stored: Time, given: Time)
    requires KindOf(f) == TimeKind && Readable(d, f) && TimeAt(d, f) == stored
    requires (f in u <==> !given.IsZero()) && (f in u ==> u[f] == DateTime(given))
    ensures Readable(d + u, f) && TimeAt(d + u, f) == PreferTime(given, stored)
  {
  }
}

=== FILE: domain.dfy ===
/**
 The two entity families and their request bodies (internal/domain), with
 the document encoding the store driver derives from their `bson` tags.
 */
module Domain {
  import opened Outcomes
  import opened ObjectIds
  import opened Bson

  /** `CommonMovieRequest`: the body of a create or update request; it carries no identifier. */
  datatype MovieRequest = MovieRequest(
    cover: string,
    name: string,
    originalName: string,
    description: string,
    duration: string,
    releaseDate: Time,
    age: string,
    categories: seq<string>,
    tags: seq<string>,
    media: seq<string>)

  /** `CommonMovieResponse`: a stored movie with its identifier. */
  datatype Movie = Movie(
    id: ObjectId,
    cover: string,
    name: string,
    originalName: string,
    description: string,
    duration: string,
    releaseDate: Time,
    age: string,
    categories: seq<string>,
    tags: seq<string>,
    media: seq<string>)

  /** `CommonPerformanceRequest`: like a movie request without original name or release date. */
  datatype PerformanceRequest = PerformanceRequest(
    cover: string,
    name: string,
    description: string,
    duration: string,
    age: string,
    categories: seq<string>,
    tags: seq<string>,
    media: seq<string>)

  /** `CommonPerformanceResponse`. */
  datatype Performance = Performance(
    id: ObjectId,
    cover: string,
    name: string,
    description: string,
    duration: string,
    age: string,
    categories: seq<string>,
    tags: seq<string>,
    media: seq<string>)

  /** Every field of a movie except its identifier, under its stored key. */
  function MovieFields(m: Movie): (d: Document)
    ensures Id !in d
  {
    map[
      Cover := Text(m.cover),
      Name := Text(m.name),
      OriginalName := Text(m.originalName),
      Description := Text(m.description),
      Duration := Text(m.duration),
      ReleaseDate := DateTime(m.releaseDate),
      Age := Text(m.age),
      Categories := TextArray(m.categories),
      Tags := TextArray(m.tags),
      Media := TextArray(m.media)]
  }

  predicate MovieReadable(d: Document) {
    && Readable(d, Id) && Readable(d, Cover) && Readable(d, Name) && Readable(d, OriginalName)
    && Readable(d, Description) && Readable(d, Duration) && Readable(d, ReleaseDate) && Readable(d, Age)
    && Readable(d, Categories) && Readable(d, Tags) && Readable(d, Media)
  }

  /** Decoding into `GetMovieResponse`: every field read on its own; one bad field fails the whole. */
  function DecodeMovie(d: Document): Result<Movie> {
    if !MovieReadable(d) then Err(DecodeFailure)
    else Ok(Movie(
      IdAt(d), StringAt(d, Cover), StringAt(d, Name), StringAt(d, OriginalName), StringAt(d, Description),
      StringAt(d, Duration), TimeAt(d, ReleaseDate), StringAt(d, Age),
      StringsAt(d, Categories), StringsAt(d, Tags), StringsAt(d, Media)))
  }

  /** Decoding succeeds with `m` when every field reads as the corresponding field of `m`. */
  lemma MovieDecodes(d: Document, m: Movie)
    requires MovieReadable(d) && IdAt(d) == m.id
    requires StringAt(d, Cover) == m.cover && StringAt(d, Name) == m.name
    requires StringAt(d, OriginalName) == m.originalName && StringAt(d, Description) == m.description
    requires StringAt(d, Duration) == m.duration && TimeAt(d, ReleaseDate) == m.releaseDate
    requires StringAt(d, Age) == m.age && StringsAt(d, Categories) == m.categories
    requires StringsAt(d, Tags) == m.tags && StringsAt(d, Media) == m.media
    ensures DecodeMovie(d) == Ok(m)
  {
  }

  /** The document the driver writes for a movie; decoding it gives the movie back. */
  function EncodeMovie(m: Movie): (d: Document)
    ensures DecodeMovie(d) == Ok(m)
  {
    var d := WithId(MovieFields(m), m.id);
    if m.id.IsZero() then
      assert m.id == Zero;
      DecodeUnidentifiedMovie(m);
      d
    else
      DecodeStoredMovie(m, m.id);
      d
  }

  /** Movie fields stored without an `_id` decode with the zero identifier. */
  lemma DecodeUnidentifiedMovie(m: Movie)
    ensures DecodeMovie(MovieFields(m)) == Ok(m.(id := Zero))
  {
  }

  /** A movie document stored under an identifier decodes to the movie carrying that identifier. */
  lemma DecodeStoredMovie(m: Movie, id: ObjectId)
    ensures DecodeMovie(MovieFields(m)[Id := ObjectIdValue(id)]) == Ok(m.(id := id))
  {
  }

  function PerformanceFields(p: Performance): (d: Document)
    ensures Id !in d
  {
    map[
      Cover := Text(p.cover),
      Name := Text(p.name),
      Description := Text(p.description),
      Duration := Text(p.duration),
      Age := Text(p.age),
      Categories := TextArray(p.categories),
      Tags := TextArray(p.tags),
      Media := TextArray(p.media)]
  }

  predicate PerformanceReadable(d: Document) {
    && Readable(d, Id) && Readable(d, Cover) && Readable(d, Name) && Readable(d, Description)
    && Readable(d, Duration) && Readable(d, Age)
    && Readable(d, Categories) && Readable(d, Tags) && Readable(d, Media)
  }

  /** Decoding into `GetPerformanceResponse`; keys it has no field for are ignored. */
  function DecodePerformance(d: Document): Result<Performance> {
    if !PerformanceReadable(d) then Err(DecodeFailure)
    else Ok(Performance(
      IdAt(d), StringAt(d, Cover), StringAt(d, Name), StringAt(d, Description),
      StringAt(d, Duration), StringAt(d, Age),
      StringsAt(d, Categories), StringsAt(d, Tags), StringsAt(d, Media)))
  }

  lemma PerformanceDecodes(d: Document, p: Performance)
    requires PerformanceReadable(d) && IdAt(d) == p.id
    requires StringAt(d, Cover) == p.cover && StringAt(d, Name) == p.name
    requires StringAt(d, Description) == p.description && StringAt(d, Duration) == p.duration
    requires StringAt(d, Age) == p.age && StringsAt(d, Categories) == p.categories
    requires StringsAt(d, Tags) == p.tags && StringsAt(d, Media) == p.media
    ensures DecodePerformance(d) == Ok(p)
  {
  }

  function EncodePerformance(p: Performance): (d: Document)
    ensures DecodePerformance(d) == Ok(p)
  {
    var d := WithId(PerformanceFields(p), p.id);
    if p.id.IsZero() then
      assert p.id == Zero;
      DecodeUnidentifiedPerformance(p);
      d
    else
      DecodeStoredPerformance(p, p.id);
      d
  }

  /** Performance fields stored without an `_id` decode with the zero identifier. */
  lemma DecodeUnidentifiedPerformance(p: Performance)
    ensures DecodePerformance(PerformanceFields(p)) == Ok(p.(id := Zero))
  {
  }

  lemma DecodeStoredPerformance(p: Performance, id: ObjectId)
    ensures DecodePerformance(PerformanceFields(p)[Id := ObjectIdValue(id)]) == Ok(p.(id := id))
  {
  }
}

=== FILE: http.dfy ===
/**
 What a handler sends back, built the way `pkg/lib/utils` writes it: a
 status line and a sequence of JSON values encoded one after another. The
 standard library's response writer keeps the first status written and
 ignores later ones, while every encoded value is still appended to the
 body.
 */
module Http {
  import opened Outcomes
  import opened ObjectIds
  import opened Pages

  const OK: int := 200
  const Created: int := 201
  const BadRequest: int := 400
  const NotFound: int := 404
  const InternalServerError: int := 500

  /**
   The message of an error body: the named texts of `pkg/lib/error`, or a
   text built at the call site. `MissingTags` is used by both tag-filter
   handlers but has no definition there, so it has no text here either.
   */
  datatype Message =
    | InvalidRequestFormat
    | InvalidMovieId
    | InvalidPerformanceId
    | MovieNotFound
    | PerformanceNotFound
    | InternalError
    | InvalidRequestBody
    | MissingTags
    | Detail(text: string)
  {
    function Text(): Option<string> {
      match this
      case InvalidRequestFormat => Some("Invalid request format")
      case InvalidMovieId => Some("Invalid movie id")
      case InvalidPerformanceId => Some("Invalid performance id")
      case MovieNotFound => Some("Movie not found")
      case PerformanceNotFound => Some("Performance not found")
      case InternalError => Some("Internal server error")
      case InvalidRequestBody => Some("Invalid request body")
      case MissingTags => None
      case Detail(text) => Some(text)
    }
  }

  /** One JSON value written to the body. */
  datatype Body<E> =
    | ErrorBody(status: int, message: Message)             // {"status": ..., "message": ...}
    | Listing(key: string, items: seq<E>, pagination: Pagination)  // {key: [...], "pagination": {...}}
    | Entity(item: E)
    | Null                                                 // a nil pointer encodes as null
    | StatusMessage(code: int, text: string)               // handlers.StatusMessage

  /** The response as the client receives it: the status line and the encoded values in order. */
  datatype Response<E> = Response(status: Option<int>, bodies: seq<Body<E>>)

  function Blank<E>(): Response<E> {
    Response(None, [])
  }

  /** `WriteHeader(status)` then `Encode(body)`: the first status sticks, the body is appended. */
  function Write<E>(w: Response<E>, status: int, body: Body<E>): (r: Response<E>)
    ensures r.status.Some?
    ensures w.status.Some? ==> r.status == w.status
    ensures w.status.None? ==> r.status == Some(status)
    ensures |r.bodies| == |w.bodies| + 1 && r.bodies[..|w.bodies|] == w.bodies && r.bodies[|w.bodies|] == body
  {
    Response(if w.status.Some? then w.status else Some(status), w.bodies + [body])
  }

  /** `utils.RespondWithErrorJSON`. */
  function RespondWithError<E>(w: Response<E>, status: int, message: Message): Response<E> {
    Write(w, status, ErrorBody(status, message))
  }

  /** `utils.RespondWithJSON`. */
  function RespondWithJSON<E>(w: Response<E>, status: int, body: Body<E>): Response<E> {
    Write(w, status, body)
  }

  /** A handler that writes once and returns: one value and its status. */
  predicate Single<E(==)>(r: Response<E>, status: int, body: Body<E>) {
    r == Response(Some(status), [body])
  }

  /** The service operations a handler can call, as the handler asks for them. */
  datatype Call =
    | CountCall
    | ListCall(page: int, pageSize: int)
    | GetCall(id: ObjectId)
    | CreateCall
    | UpdateCall(id: ObjectId)
    | DeleteCall(id: ObjectId)
    | SearchCall(query: string, page: int, pageSize: int)
    | TagsCall(tags: seq<string>, page: int, pageSize: int)

  /** What a handler did: the response it wrote and the service calls it made, in order. */
  datatype Exchange<E> = Exchange(response: Response<E>, calls: seq<Call>)

  /** A handler that refused the request with one error body and called nothing. */
  predicate Refused<E(==)>(x: Exchange<E>, status: int, message: Message) {
    x.calls == [] && Single(x.response, status, ErrorBody(status, message))
  }

  /** `r.URL.Query()`: every key with its values in order. */
  type Query = map<string, seq<string>>

  /** `Values.Get`: the first value of the key, the empty string when there is none. */
  function Get(q: Query, key: string): (v: string)
    ensures v == "" <==> key !in q || q[key] == [] || q[key][0] == ""
    ensures v != "" ==> v in q[key]
  {
    if key in q && |q[key]| > 0 then q[key][0] else ""
  }

  /** `r.URL.Query()[key]`: all values of the key, none when it is absent. */
  function Values(q: Query, key: string): (vs: seq<string>)
    ensures vs == [] <==> key !in q || q[key] == []
    ensures forall v | v in vs :: key in q && v in q[key]
  {
    if key in q then q[key] else []
  }

  /** One `WriteHeader` and `Encode` pair of a handler. */
  datatype Written<E> = Written(status: int, body: Body<E>)

  /**
   The writes of a handler applied in order. `WritesFold` is the general law
   for any number of writes; `FirstStatusWins` is its two-write instance,
   the one `TheatreHandlers.GetPerformanceByID` exhibits.
   */
  function WriteAll<E>(w: Response<E>, writes: seq<Written<E>>): Response<E>
    decreases |writes|
  {
    if |writes| == 0 then w else WriteAll(Write(w, writes[0].status, writes[0].body), writes[1..])
  }

  /**
   Any sequence of writes leaves the first status ever written, and the
   body is every encoded value in order: later statuses are lost, later
   bodies are not.
   */
  lemma {:induction false} WritesFold<E>(w: Response<E>, writes: seq<Written<E>>)
    ensures var r := WriteAll(w, writes);
      && r.status == (if w.status.Some? then w.status else if |writes| > 0 then Some(writes[0].status) else None)
      && r.bodies == w.bodies + seq(|writes|, i requires 0 <= i < |writes| => writes[i].body)
    decreases |writes|
  {
    if |writes| > 0 {
      var w' := Write(w, writes[0].status, writes[0].body);
      WritesFold(w', writes[1..]);
      var rest := seq(|writes| - 1, i requires 0 <= i < |writes| - 1 => writes[1..][i].body);
      var all := seq(|writes|, i requires 0 <= i < |writes| => writes[i].body);
      assert all == [writes[0].body] + rest;
    }
  }

  /** After a first status, later writes only add to the body. */
  lemma FirstStatusWins<E>(status: int, body: Body<E>, later: int, more: Body<E>)
    ensures Write(Write(Blank(), status, body), later, more) == Response(Some(status), [body, more])
    ensures Write(Write(Blank(), status, body), later, more) == WriteAll(Blank(), [Written(status, body), Written(later, more)])
  {
    var writes := [Written(status, body), Written(later, more)];
    WritesFold(Blank(), writes);
    assert seq(|writes|, i requires 0 <= i < |writes| => writes[i].body) == [body, more];
  }
}

=== FILE: int64.dfy ===
/**
 Go's `int` on the 64-bit platforms the service targets: arithmetic wraps
 around in two's complement. The handlers compute `(page - 1) * pageSize`
 and `page + 1` in this type.
 */
module Int64 {

  const Min: int := -0x8000_0000_0000_0000
  const Max: int := 0x7FFF_FFFF_FFFF_FFFF
  const Modulus: int := 0x1_0000_0000_0000_0000

  predicate InRange(x: int) {
    Min <= x <= Max
  }

  /** The value a Go `int` holds after an arithmetic result `x` has wrapped around. */
  function Wrap(x: int): (r: int)
    ensures InRange(r)
    ensures (x - r) % Modulus == 0
    ensures InRange(x) ==> r == x
  {
    (x - Min) % Modulus + Min
  }

  /** Wrapping is the only value in range congruent to `x`: no other choice was possible. */
  lemma WrapUnique(x: int, y: int)
    requires InRange(y) && (x - y) % Modulus == 0
    ensures Wrap(x) == y
  {
    var r := Wrap(x);
    assert (r - y) % Modulus == 0 by {
      assert (x - r) % Modulus == 0;
      assert x - y == (x - r) + (r - y);
    }
    assert -Modulus < r - y < Modulus;
  }

  lemma ProductNonNegative(a: int, b: int)
    requires a >= 0 && b >= 0
    ensures a * b >= 0
  {
  }
}

=== FILE: movie_handlers.dfy ===
/**
 The movie HTTP handlers (internal/delivery/handlers/movie_handlers.go).
 Each handler is a function of what it reads from the request (the query
 string, the `{id}` path parameter, the decoded JSON body or `None` when
 the body does not decode) and of the service operations it may call,
 and returns the response it writes together with the calls it made.
 */
module MovieHandlers {
  import opened Outcomes
  import opened ObjectIds
  import opened Domain
  import opened Pages
  import opened Http
  import MovieRepository
  import Int64

  /** The listing every movie list handler answers with. */
  function MovieList(page: int, movies: seq<Movie>): Body<Movie>
    requires 1 <= page <= Int64.Max
  {
    Listing("movies", movies, Links(page, |movies|))
  }

  /** A successful list answer: status 200 and one listing of exactly `movies`, paginated for `page`. */
  predicate ListedPage(r: Response<Movie>, page: int, movies: seq<Movie>) {
    && r.status == Some(OK)
    && |r.bodies| == 1
    && r.bodies[0].Listing?
    && r.bodies[0].key == "movies"
    && r.bodies[0].items == movies
    && r.bodies[0].pagination.Basic?
    && DescribesPage(r.bodies[0].pagination, page, |movies|)
  }

  /** A single error body with its status. */
  predicate Failed(r: Response<Movie>, status: int, message: Message) {
    Single(r, status, ErrorBody(status, message))
  }

  /**
   `GetAllMoviesHandler`: a bad `page` is refused before any call; otherwise
   one page of ten is asked for, and a service error becomes 500.
   */
  function GetAllMoviesHandler(q: Query, list: (int, int) -> Result<seq<Movie>>): (x: Exchange<Movie>)
    ensures ParsePage(Get(q, "page")).None? ==> Refused(x, BadRequest, InvalidRequestFormat)
    ensures ParsePage(Get(q, "page")).Some? ==>
      var page := ParsePage(Get(q, "page")).value;
      && x.calls == [ListCall(page, PageSize)]
      && (list(page, PageSize).Err? ==> Failed(x.response, InternalServerError, InternalError))
      && (list(page, PageSize).Ok? ==> ListedPage(x.response, page, list(page, PageSize).value))
  {
    match ParsePage(Get(q, "page"))
    case None => Exchange(RespondWithError(Blank(), BadRequest, InvalidRequestFormat), [])
    case Some(page) =>
      var calls := [ListCall(page, PageSize)];
      match list(page, PageSize)
      case Err(_) => Exchange(RespondWithError(Blank(), InternalServerError, InternalError), calls)
      case Ok(movies) => Exchange(RespondWithJSON(Blank(), OK, MovieList(page, movies)), calls)
  }

  /**
   `GetMovieHandler`: an identifier that is not 24 hexadecimal digits is
   refused; an absent movie is 404 "Movie not found"; a service error is 500.
   */
  function GetMovieHandler(idText: string, get: ObjectId -> Result<Option<Movie>>): (x: Exchange<Movie>)
    ensures FromHex(idText).None? ==> Refused(x, BadRequest, InvalidMovieId)
    ensures FromHex(idText).Some? ==>
      var id := FromHex(idText).value;
      && x.calls == [GetCall(id)]
      && (get(id).Err? ==> Failed(x.response, InternalServerError, InternalError))
      && (get(id) == Ok(None) ==> Failed(x.response, NotFound, MovieNotFound))
      && (get(id).Ok? && get(id).value.Some? ==> Single(x.response, OK, Entity(get(id).value.value)))
  {
    match FromHex(idText)
    case None => Exchange(RespondWithError(Blank(), BadRequest, InvalidMovieId), [])
    case Some(id) =>
      var calls := [GetCall(id)];
      match get(id)
      case Err(_) => Exchange(RespondWithError(Blank(), InternalServerError, InternalError), calls)
      case Ok(None) => Exchange(RespondWithError(Blank(), NotFound, MovieNotFound), calls)
      case Ok(Some(m)) => Exchange(RespondWithJSON(Blank(), OK, Entity(m)), calls)
  }

  /** The 500 message of a failed create: the service's error text after a fixed prefix. */
  function CreateFailure(error: string): Message {
    Detail("Error creating movie: " + error)
  }

  /** `CreateMovieHandler`: an undecodable body is 400; a created movie is 201 with the movie. */
  function CreateMovieHandler(body: Option<MovieRequest>, create: MovieRequest -> Result<Movie>): (x: Exchange<Movie>)
    ensures body.None? ==> Refused(x, BadRequest, InvalidRequestBody)
    ensures body.Some? ==>
      && x.calls == [CreateCall]
      && (create(body.value).Err? ==> Failed(x.response, InternalServerError, CreateFailure(create(body.value).error)))
      && (create(body.value).Ok? ==> Single(x.response, Created, Entity(create(body.value).value)))
  {
    match body
    case None => Exchange(RespondWithError(Blank(), BadRequest, InvalidRequestBody), [])
    case Some(req) =>
      match create(req)
      case Err(e) => Exchange(RespondWithError(Blank(), InternalServerError, CreateFailure(e)), [CreateCall])
      case Ok(m) => Exchange(RespondWithJSON(Blank(), Created, Entity(m)), [CreateCall])
  }

  /** The 500 message of a failed update: the service's error text after a fixed prefix. */
  function UpdateFailure(error: string): Message {
    Detail("Error updating movie: " + error)
  }

  /**
   `UpdateMovieHandler`: the identifier is checked before the body. Every
   service error, "movie not found" included, is answered 500 with the
   error's text: the branch that would answer 404 sits after the error has
   already been handled, so no update is ever answered 404.
   */
  function UpdateMovieHandler(idText: string, body: Option<MovieRequest>,
                              update: (ObjectId, MovieRequest) -> Result<Movie>): (x: Exchange<Movie>)
    ensures FromHex(idText).None? ==> Refused(x, BadRequest, InvalidMovieId)
    ensures FromHex(idText).Some? && body.None? ==> Refused(x, BadRequest, InvalidRequestBody)
    ensures FromHex(idText).Some? && body.Some? ==>
      var id := FromHex(idText).value;
      var r := update(id, body.value);
      && x.calls == [UpdateCall(id)]
      && (r.Err? ==> Failed(x.response, InternalServerError, UpdateFailure(r.error)))
      && (r.Ok? ==> Single(x.response, OK, Entity(r.value)))
    ensures x.response.status != Some(NotFound)
  {
    match FromHex(idText)
    case None => Exchange(RespondWithError(Blank(), BadRequest, InvalidMovieId), [])
    case Some(id) =>
      match body
      case None => Exchange(RespondWithError(Blank(), BadRequest, InvalidRequestBody), [])
      case Some(req) =>
        var calls := [UpdateCall(id)];
        match update(id, req)
        case Err(e) => Exchange(RespondWithError(Blank(), InternalServerError, UpdateFailure(e)), calls)
        case Ok(m) => Exchange(RespondWithJSON(Blank(), OK, Entity(m)), calls)
  }

  /**
   `DeleteMovie`: the service's "movie not found" is 404, any other error
   500, success 200 with a status message.
   */
  function DeleteMovie(idText: string, delete: ObjectId -> Outcome): (x: Exchange<Movie>)
    ensures FromHex(idText).None? ==> Refused(x, BadRequest, InvalidMovieId)
    ensures FromHex(idText).Some? ==>
      var id := FromHex(idText).value;
      && x.calls == [DeleteCall(id)]
      && (delete(id) == Pass ==> Single(x.response, OK, StatusMessage(200, "Movie deleted successfully")))
      && (delete(id).Fail? && delete(id).error != MovieRepository.NotFound ==>
            Failed(x.response, InternalServerError, InternalError))
    ensures x.response.status == Some(NotFound) <==>
      FromHex(idText).Some? && delete(FromHex(idText).value) == Fail(MovieRepository.NotFound)
    ensures x.response.status == Some(NotFound) ==> Failed(x.response, NotFound, MovieNotFound)
  {
    match FromHex(idText)
    case None => Exchange(RespondWithError(Blank(), BadRequest, InvalidMovieId), [])
    case Some(id) =>
      var calls := [DeleteCall(id)];
      match delete(id)
      case Fail(e) =>
        if e == MovieRepository.NotFound then Exchange(RespondWithError(Blank(), NotFound, MovieNotFound), calls)
        else Exchange(RespondWithError(Blank(), InternalServerError, InternalError), calls)
      case Pass => Exchange(RespondWithJSON(Blank(), OK, StatusMessage(200, "Movie deleted successfully")), calls)
  }

  /** `SearchMoviesHandler`: the `query` parameter, possibly empty, is passed on with the page. */
  function SearchMoviesHandler(q: Query, search: (string, int, int) -> Result<seq<Movie>>): (x: Exchange<Movie>)
    ensures ParsePage(Get(q, "page")).None? ==> Refused(x, BadRequest, InvalidRequestFormat)
    ensures ParsePage(Get(q, "page")).Some? ==>
      var page := ParsePage(Get(q, "page")).value;
      var r := search(Get(q, "query"), page, PageSize);
      && x.calls == [SearchCall(Get(q, "query"), page, PageSize)]
      && (r.Err? ==> Failed(x.response, InternalServerError, InternalError))
      && (r.Ok? ==> ListedPage(x.response, page, r.value))
  {
    match ParsePage(Get(q, "page"))
    case None => Exchange(RespondWithError(Blank(), BadRequest, InvalidRequestFormat), [])
    case Some(page) =>
      var query := Get(q, "query");
      var calls := [SearchCall(query, page, PageSize)];
      match search(query, page, PageSize)
      case Err(_) => Exchange(RespondWithError(Blank(), InternalServerError, InternalError), calls)
      case Ok(movies) => Exchange(RespondWithJSON(Blank(), OK, MovieList(page, movies)), calls)
  }

  /**
   `FilterByTagsHandler`: every `tags` value is passed on; the page is
   checked first, then a request without tags is refused before any call.
   */
  function FilterByTagsHandler(q: Query, filter: (seq<string>, int, int) -> Result<seq<Movie>>): (x: Exchange<Movie>)
    ensures ParsePage(Get(q, "page")).None? ==> Refused(x, BadRequest, InvalidRequestFormat)
    ensures ParsePage(Get(q, "page")).Some? && |Values(q, "tags")| == 0 ==> Refused(x, BadRequest, MissingTags)
    ensures ParsePage(Get(q, "page")).Some? && |Values(q, "tags")| > 0 ==>
      var page := ParsePage(Get(q, "page")).value;
      var r := filter(Values(q, "tags"), page, PageSize);
      && x.calls == [TagsCall(Values(q, "tags"), page, PageSize)]
      && (r.Err? ==> Failed(x.response, InternalServerError, InternalError))
      && (r.Ok? ==> ListedPage(x.response, page, r.value))
  {
    var tags := Values(q, "tags");
    match ParsePage(Get(q, "page"))
    case None => Exchange(RespondWithError(Blank(), BadRequest, InvalidRequestFormat), [])
    case Some(page) =>
      if |tags| == 0 then Exchange(RespondWithError(Blank(), BadRequest, MissingTags), [])
      else
        var calls := [TagsCall(tags, page, PageSize)];
        match filter(tags, page, PageSize)
        case Err(_) => Exchange(RespondWithError(Blank(), InternalServerError, InternalError), calls)
        case Ok(movies) => Exchange(RespondWithJSON(Blank(), OK, MovieList(page, movies)), calls)
  }
}

=== FILE: movie_repository.dfy ===
/**
 The movie repository over the document store
 (internal/repository/mongodb/movie_repository.go). Each operation takes
 the collection and returns the collection afterwards when it writes.
 */
module MovieRepository {
  import opened Outcomes
  import opened ObjectIds
  import opened Bson
  import opened Domain
  import opened Store
  import Int64

  /** The error text the update and delete operations signal absence with; handlers compare against it. */
  const NotFound: string := "movie not found"
  const InsertedIdError: string := "error getting inserted movie ID"

  /** `GetAllMovies`: every movie, one page at a time. */
  function GetAllMovies(c: Collection, page: int, pageSize: int, fault: Option<string>): Result<seq<Movie>> {
    FindDecoded(c, Everything, Offset(page, pageSize), pageSize, DecodeMovie, fault)
  }

  /** Page `page` is the run of stored movies starting at `(page - 1) * pageSize`, at most `pageSize` long. */
  lemma GetAllMoviesPage(c: Collection, page: int, pageSize: int)
    requires page >= 1 && pageSize >= 1 && PageStart(page, pageSize) <= Int64.Max
    ensures var r := GetAllMovies(c, page, pageSize, None);
      && (r.Ok? <==> WindowDecodes(c.docs, PageStart(page, pageSize), pageSize, DecodeMovie))
      && (r.Ok? ==> DecodedRun(r.value, c.docs, PageStart(page, pageSize), pageSize, DecodeMovie))
  {
    OffsetFits(page, pageSize);
    FindDecodedEverything(c, PageStart(page, pageSize), pageSize, DecodeMovie);
  }

  /**
   The offset is computed in Go's `int`: for page 1844674407370955163 the
   product `(page - 1) * 10` is 2^64 + 4, which wraps to 4, so that page
   repeats stored movies from the fifth on instead of being empty.
   */
  lemma HugePageWrapsAround(c: Collection)
    ensures var r := GetAllMovies(c, 1844674407370955163, 10, None);
      && (r.Ok? <==> WindowDecodes(c.docs, 4, 10, DecodeMovie))
      && (r.Ok? ==> DecodedRun(r.value, c.docs, 4, 10, DecodeMovie))
  {
    assert Offset(1844674407370955163, 10) == 4;
    FindDecodedEverything(c, 4, 10, DecodeMovie);
  }

  /** `GetMovieByID`: `Ok(None)` when no document has the identifier, which is not an error. */
  function GetMovieByID(c: Collection, id: ObjectId, fault: Option<string>): (r: Result<Option<Movie>>)
    ensures fault.Some? ==> r == Err(fault.value)
    ensures r == Ok(None) <==> fault.None? && !Contains(c, id)
    ensures r.Ok? && r.value.Some? ==> r.value.value.id == id
    ensures r.Ok? && r.value.Some? ==> exists d | d in c.docs :: HasId(d, id) && DecodeMovie(d) == Ok(r.value.value)
  {
    match FindOne(c, IdEquals(id), fault)
    case Err(e) => Err(e)
    case Ok(None) => Ok(None)
    case Ok(Some(d)) =>
      match DecodeMovie(d)
      case Err(e) => Err(e)
      case Ok(m) => Ok(Some(m))
  }

  /**
   `CreateMovie`: the response copies the request's cover, names,
   description, duration, release date, age, categories and media, but not
   its tags, which are never stored; it carries the identifier the store
   assigned.
   */
  function CreateMovie(c: Collection, req: MovieRequest, generated: ObjectId, fault: Option<string>): (r: (Collection, Result<Movie>))
    ensures r.1.Ok? <==> fault.None? && !Contains(c, generated)
    ensures r.1.Ok? ==> r.1.value == Movie(generated, req.cover, req.name, req.originalName, req.description,
                                           req.duration, req.releaseDate, req.age, req.categories, [], req.media)
    ensures r.1.Err? ==> r.0 == c
    ensures Valid(c) ==> Valid(r.0)
    ensures r.1.Ok? ==> |r.0.docs| == |c.docs| + 1 && r.0.docs[..|c.docs|] == c.docs
  {
    var m := Movie(Zero, req.cover, req.name, req.originalName, req.description,
                   req.duration, req.releaseDate, req.age, req.categories, [], req.media);
    var doc := EncodeMovie(m);
    assert Id !in doc;
    var (c', inserted) := InsertOne(c, doc, generated, fault);
    match inserted
    case Err(e) => (c', Err(e))
    case Ok(ObjectIdValue(id)) => (c', Ok(m.(id := id)))
    case Ok(_) => (c', Err(InsertedIdError))
  }

  /** Creating a movie and fetching it by the identifier it came back with yields the same movie. */
  lemma CreateThenGet(c: Collection, req: MovieRequest, generated: ObjectId)
    requires CreateMovie(c, req, generated, None).1.Ok?
    ensures var (c', r) := CreateMovie(c, req, generated, None);
      GetMovieByID(c', generated, None) == Ok(Some(r.value))
  {
    var (c', r) := CreateMovie(c, req, generated, None);
    var m := Movie(Zero, req.cover, req.name, req.originalName, req.description,
                   req.duration, req.releaseDate, req.age, req.categories, [], req.media);
    var stored := MovieFields(m)[Id := ObjectIdValue(generated)];
    assert c'.docs == c.docs + [stored];
    AppendedIsFound(c, stored, generated);
    DecodeStoredMovie(m, generated);
  }

  /**
   The entry the `$set` of `UpdateMovie` holds for a field: a string field
   only when it is not empty, the release date only when it is not the zero
   time, a list only when it has elements. The identifier is never set.
   */
  function Assigned(req: MovieRequest, f: Field): Option<Value> {
    match f
    case Id => None
    case Cover => if req.cover != "" then Some(Text(req.cover)) else None
    case Name => if req.name != "" then Some(Text(req.name)) else None
    case OriginalName => if req.originalName != "" then Some(Text(req.originalName)) else None
    case Description => if req.description != "" then Some(Text(req.description)) else None
    case Duration => if req.duration != "" then Some(Text(req.duration)) else None
    case ReleaseDate => if !req.releaseDate.IsZero() then Some(DateTime(req.releaseDate)) else None
    case Age => if req.age != "" then Some(Text(req.age)) else None
    case Categories => if |req.categories| > 0 then Some(TextArray(req.categories)) else None
    case Tags => if |req.tags| > 0 then Some(TextArray(req.tags)) else None
    case Media => if |req.media| > 0 then Some(TextArray(req.media)) else None
  }

  /** The `$set` document: exactly the assigned fields. */
  function UpdateFields(req: MovieRequest): (u: Document)
    ensures forall f :: f in u <==> Assigned(req, f).Some?
    ensures forall f | f in u :: u[f] == Assigned(req, f).value
  {
    map f | f in AllFields && Assigned(req, f).Some? :: Assigned(req, f).value
  }

  /** The partial-update semantics field by field: an empty request field keeps the stored one. */
  function Merge(m: Movie, req: MovieRequest): Movie {
    Movie(
      m.id,
      PreferText(req.cover, m.cover),
      PreferText(req.name, m.name),
      PreferText(req.originalName, m.originalName),
      PreferText(req.description, m.description),
      PreferText(req.duration, m.duration),
      PreferTime(req.releaseDate, m.releaseDate),
      PreferText(req.age, m.age),
      PreferTexts(req.categories, m.categories),
      PreferTexts(req.tags, m.tags),
      PreferTexts(req.media, m.media))
  }

  /** Applying the `$set` to a stored movie and decoding gives the field-by-field merge. */
  lemma SetMerges(d: Document, m: Movie, req: MovieRequest)
    requires DecodeMovie(d) == Ok(m)
    ensures DecodeMovie(d + UpdateFields(req)) == Ok(Merge(m, req))
  {
    SetMergesTexts(d, m, req);
    SetMergesOthers(d, m, req);
    MovieDecodes(d + UpdateFields(req), Merge(m, req));
  }

  /** After the `$set` each string field reads as the given text when there was one, else as before. */
  lemma SetMergesTexts(d: Document, m: Movie, req: MovieRequest)
    requires DecodeMovie(d) == Ok(m)
    ensures var e := d + UpdateFields(req);
      && Readable(e, Cover) && StringAt(e, Cover) == PreferText(req.cover, m.cover)
      && Readable(e, Name) && StringAt(e, Name) == PreferText(req.name, m.name)
      && Readable(e, OriginalName) && StringAt(e, OriginalName) == PreferText(req.originalName, m.originalName)
      && Readable(e, Description) && StringAt(e, Description) == PreferText(req.description, m.description)
      && Readable(e, Duration) && StringAt(e, Duration) == PreferText(req.duration, m.duration)
      && Readable(e, Age) && StringAt(e, Age) == PreferText(req.age, m.age)
  {
    var u := UpdateFields(req);
    SetText(d, u, Cover, m.cover, req.cover);
    SetText(d, u, Name, m.name, req.name);
    SetText(d, u, OriginalName, m.originalName, req.originalName);
    SetText(d, u, Description, m.description, req.description);
    SetText(d, u, Duration, m.duration, req.duration);
    SetText(d, u, Age, m.age, req.age);
  }

  /** After the `$set` the date and the lists read as given when set, else as before; the identifier stays. */
  lemma SetMergesOthers(d: Document, m: Movie, req: MovieRequest)
    requires DecodeMovie(d) == Ok(m)
    ensures var e := d + UpdateFields(req);
      && Readable(e, Id) && IdAt(e) == m.id
      && Readable(e, ReleaseDate) && TimeAt(e, ReleaseDate) == PreferTime(req.releaseDate, m.releaseDate)
      && Readable(e, Categories) && StringsAt(e, Categories) == PreferTexts(req.categories, m.categories)
      && Readable(e, Tags) && StringsAt(e, Tags) == PreferTexts(req.tags, m.tags)
      && Readable(e, Media) && StringsAt(e, Media) == PreferTexts(req.media, m.media)
  {
    var u := UpdateFields(req);
    SetTime(d, u, ReleaseDate, m.releaseDate, req.releaseDate);
    SetTexts(d, u, Categories, m.categories, req.categories);
    SetTexts(d, u, Tags, m.tags, req.tags);
    SetTexts(d, u, Media, m.media, req.media);
    SetKeepsId(d, u);
  }

  /** When the merge keeps a movie as it was, every assigned field already holds the assigned value. */
  lemma AssignedAlreadyStored(d: Document, m: Movie, req: MovieRequest, f: Field)
    requires DecodeMovie(d) == Ok(m) && Merge(m, req) == m && Assigned(req, f).Some?
    ensures f in d && d[f] == Assigned(req, f).value
  {
  }

  /** The `$set` leaves a stored movie as it was exactly when the merge changes nothing. */
  lemma SetIsNoOp(d: Document, m: Movie, req: MovieRequest)
    requires DecodeMovie(d) == Ok(m)
    ensures d + UpdateFields(req) == d <==> Merge(m, req) == m
  {
    SetMerges(d, m, req);
    if Merge(m, req) == m {
      var u := UpdateFields(req);
      forall f | f in u
        ensures f in d && d[f] == u[f]
      {
        AssignedAlreadyStored(d, m, req, f);
      }
      assert d + u == d;
    }
  }

  /**
   `UpdateMovie`: a partial update by identifier. When the store reports
   no modified document the result is the "movie not found" error;
   otherwise the stored movie is fetched again and returned.
   */
  function UpdateMovie(c: Collection, id: ObjectId, req: MovieRequest, updateFault: Option<string>,
                       fetchFault: Option<string>): (r: (Collection, Result<Movie>))
    ensures r.1.Ok? ==> r.1.value.id == id
    ensures r.1.Ok? ==> GetMovieByID(r.0, id, None) == Ok(Some(r.1.value))
    ensures Valid(c) ==> Valid(r.0)
  {
    var (c', res) := UpdateOne(c, IdEquals(id), UpdateFields(req), updateFault);
    match res
    case Err(e) => (c', Err(e))
    case Ok(counts) =>
      if counts.modifiedCount == 0 then (c', Err(NotFound))
      else
        assert Contains(c', id) by {
          var i :| 0 <= i < |c.docs| && FirstMatch(c.docs, IdEquals(id)) == Some(i)
                   && c'.docs == c.docs[i := c.docs[i] + UpdateFields(req)];
          assert HasId(c'.docs[i], id);
        }
        match GetMovieByID(c', id, fetchFault)
        case Err(e) => (c', Err(e))
        case Ok(None) => assert false; (c', Err(NotFound))
        case Ok(Some(m)) => (c', Ok(m))
  }

  /** Updating an identifier no document has reports "movie not found" and changes nothing. */
  lemma UpdateMovieAbsent(c: Collection, id: ObjectId, req: MovieRequest, fetchFault: Option<string>)
    requires !Contains(c, id)
    ensures UpdateMovie(c, id, req, None, fetchFault) == (c, Err(NotFound))
  {
  }

  /**
   Updating a stored, decodable movie with a request that changes it
   returns the merge, stores it in place, and leaves every other document
   as it was.
   */
  lemma UpdateMovieMerges(c: Collection, i: int, id: ObjectId, m: Movie, req: MovieRequest)
    requires Valid(c) && 0 <= i < |c.docs| && HasId(c.docs[i], id)
    requires DecodeMovie(c.docs[i]) == Ok(m) && Merge(m, req) != m
    ensures var (c', r) := UpdateMovie(c, id, req, None, None);
      && r == Ok(Merge(m, req))
      && |c'.docs| == |c.docs|
      && DecodeMovie(c'.docs[i]) == Ok(Merge(m, req))
      && forall j | 0 <= j < |c.docs| && j != i :: c'.docs[j] == c.docs[j]
  {
    FirstMatchById(c, i, id);
    SetIsNoOp(c.docs[i], m, req);
    SetMerges(c.docs[i], m, req);
    var c' := UpdateOne(c, IdEquals(id), UpdateFields(req), None).0;
    assert c'.docs == c.docs[i := c.docs[i] + UpdateFields(req)];
    FirstMatchById(c', i, id);
  }

  /**
   An update that would leave the stored movie as it was modifies no
   document, so the existing movie is reported as "movie not found".
   */
  lemma UpdateMovieNoOpIsNotFound(c: Collection, i: int, id: ObjectId, m: Movie, req: MovieRequest, fetchFault: Option<string>)
    requires Valid(c) && 0 <= i < |c.docs| && HasId(c.docs[i], id)
    requires DecodeMovie(c.docs[i]) == Ok(m) && Merge(m, req) == m
    ensures UpdateMovie(c, id, req, None, fetchFault) == (c, Err(NotFound))
  {
    FirstMatchById(c, i, id);
    SetIsNoOp(c.docs[i], m, req);
  }

  /** `DeleteMovie`: "movie not found" when no document was deleted. */
  function DeleteMovie(c: Collection, id: ObjectId, fault: Option<string>): (r: (Collection, Outcome))
    ensures fault.Some? ==> r == (c, Fail(fault.value))
    ensures fault.None? ==> (r.1 == Pass <==> Contains(c, id))
    ensures fault.None? && !Contains(c, id) ==> r == (c, Fail(NotFound))
    ensures r.1 == Pass ==> |r.0.docs| == |c.docs| - 1
    ensures Valid(c) ==> Valid(r.0)
  {
    var (c', res) := DeleteOne(c, IdEquals(id), fault);
    match res
    case Err(e) => (c', Fail(e))
    case Ok(n) => if n == 0 then (c', Fail(NotFound)) else (c', Pass)
  }

  /** A successful delete removes exactly the document with the identifier and keeps every other one. */
  lemma DeleteMovieRemovesExactly(c: Collection, id: ObjectId)
    requires Valid(c) && DeleteMovie(c, id, None).1 == Pass
    ensures var c' := DeleteMovie(c, id, None).0;
      && !Contains(c', id)
      && forall d :: d in c'.docs <==> d in c.docs && !HasId(d, id)
  {
    DeleteOneById(c, id);
  }

  /** Deleting the same identifier twice: the second attempt reports "movie not found". */
  lemma DeleteMovieTwice(c: Collection, id: ObjectId)
    requires Valid(c)
    ensures var c' := DeleteMovie(c, id, None).0;
      DeleteMovie(c', id, None) == (c', Fail(NotFound))
  {
    if DeleteMovie(c, id, None).1 == Pass {
      DeleteMovieRemovesExactly(c, id);
    }
  }

  /** The `$or` of two case-insensitive regular expressions `SearchMovies` builds. */
  function SearchFilter(query: string): Filter {
    Or(Regex(Name, query), Regex(OriginalName, query))
  }

  /** `SearchMovies`: movies whose name or original name matches the query, one page at a time. */
  function SearchMovies(c: Collection, query: string, page: int, pageSize: int, fault: Option<string>): Result<seq<Movie>> {
    FindDecoded(c, SearchFilter(query), Offset(page, pageSize), pageSize, DecodeMovie, fault)
  }

  /**
   Which decodable documents the search selects. For a non-empty query: the
   movies whose name or original name contains the query, ignoring case. For
   the empty query, which the handler sends when `query` is absent: those
   where either key holds a string at all, since an empty pattern matches
   every string but not a missing key or a null.
   */
  lemma SearchSelects(d: Document, m: Movie, query: string)
    requires DecodeMovie(d) == Ok(m)
    ensures query != "" ==>
      (Matches(d, SearchFilter(query)) <==> ContainsFold(m.name, query) || ContainsFold(m.originalName, query))
    ensures query == "" ==>
      (Matches(d, SearchFilter(query)) <==> HoldsText(d, Name) || HoldsText(d, OriginalName))
  {
    if query != "" {
      assert !ContainsFold("", query) by {
        assert |Fold(query)| > 0;
      }
    }
  }

  /** Every movie the repository writes holds a name, so the empty query selects all of them. */
  lemma EmptySearchSelectsEncoded(m: Movie)
    ensures Matches(EncodeMovie(m), SearchFilter(""))
  {
    assert Name in EncodeMovie(m) && EncodeMovie(m)[Name] == Text(m.name);
    assert Fold("") <= Fold(m.name);
  }

  /**
   Page `page` of a search is the run of stored movies the search selects,
   in collection order, from `(page - 1) * pageSize` on and at most
   `pageSize` of them; it fails exactly when one of those does not decode.
   */
  lemma SearchMoviesPage(c: Collection, query: string, page: int, pageSize: int)
    requires page >= 1 && pageSize >= 1 && PageStart(page, pageSize) <= Int64.Max
    ensures var r := SearchMovies(c, query, page, pageSize, None);
      var selected := Matching(c.docs, SearchFilter(query));
      && (r.Ok? <==> WindowDecodes(selected, PageStart(page, pageSize), pageSize, DecodeMovie))
      && (r.Ok? ==> DecodedRun(r.value, selected, PageStart(page, pageSize), pageSize, DecodeMovie))
  {
    OffsetFits(page, pageSize);
    FindDecodedPage(c, SearchFilter(query), PageStart(page, pageSize), pageSize, DecodeMovie);
  }

  /** Every movie a search returns has the query in its name or original name. */
  lemma SearchMoviesSound(c: Collection, query: string, page: int, pageSize: int, fault: Option<string>, k: int)
    requires SearchMovies(c, query, page, pageSize, fault).Ok?
    requires 0 <= k < |SearchMovies(c, query, page, pageSize, fault).value|
    ensures var m := SearchMovies(c, query, page, pageSize, fault).value[k];
      ContainsFold(m.name, query) || ContainsFold(m.originalName, query)
  {
    var m := SearchMovies(c, query, page, pageSize, fault).value[k];
    FindDecodedSound(c, SearchFilter(query), Offset(page, pageSize), pageSize, DecodeMovie, fault, k);
    var d :| d in c.docs && Matches(d, SearchFilter(query)) && DecodeMovie(d) == Ok(m);
    SearchSelects(d, m, query);
    if query == "" {
      assert Fold(query) <= Fold(m.name);
    }
  }

  /** `FilterByTags`: movies with at least one of the given tags (`$in`), one page at a time. */
  function FilterByTags(c: Collection, tags: seq<string>, page: int, pageSize: int, fault: Option<string>): Result<seq<Movie>> {
    FindDecoded(c, In(Tags, tags), Offset(page, pageSize), pageSize, DecodeMovie, fault)
  }

  /** A decodable document is selected exactly when the movie shares a tag with the request (any-of). */
  lemma TagFilterSelects(d: Document, m: Movie, tags: seq<string>)
    requires DecodeMovie(d) == Ok(m)
    ensures Matches(d, In(Tags, tags)) <==> exists t | t in m.tags :: t in tags
  {
  }

  /**
   Page `page` of the tag filter is the run of stored movies sharing a tag
   with the request, in collection order, from `(page - 1) * pageSize` on and
   at most `pageSize` of them; it fails exactly when one of those does not decode.
   */
  lemma FilterByTagsPage(c: Collection, tags: seq<string>, page: int, pageSize: int)
    requires page >= 1 && pageSize >= 1 && PageStart(page, pageSize) <= Int64.Max
    ensures var r := FilterByTags(c, tags, page, pageSize, None);
      var selected := Matching(c.docs, In(Tags, tags));
      && (r.Ok? <==> WindowDecodes(selected, PageStart(page, pageSize), pageSize, DecodeMovie))
      && (r.Ok? ==> DecodedRun(r.value, selected, PageStart(page, pageSize), pageSize, DecodeMovie))
  {
    OffsetFits(page, pageSize);
    FindDecodedPage(c, In(Tags, tags), PageStart(page, pageSize), pageSize, DecodeMovie);
  }

  /** Every movie the tag filter returns shares a tag with the request. */
  lemma FilterByTagsSound(c: Collection, tags: seq<string>, page: int, pageSize: int, fault: Option<string>, k: int)
    requires FilterByTags(c, tags, page, pageSize, fault).Ok?
    requires 0 <= k < |FilterByTags(c, tags, page, pageSize, fault).value|
    ensures exists t | t in FilterByTags(c, tags, page, pageSize, fault).value[k].tags :: t in tags
  {
    var m := FilterByTags(c, tags, page, pageSize, fault).value[k];
    FindDecodedSound(c, In(Tags, tags), Offset(page, pageSize), pageSize, DecodeMovie, fault, k);
    var d :| d in c.docs && Matches(d, In(Tags, tags)) && DecodeMovie(d) == Ok(m);
    TagFilterSelects(d, m, tags);
  }
}

=== FILE: object_id.dfy ===
/**
 The document store's 12-byte object identifier and its 24-character
 hexadecimal spelling, as read by `primitive.ObjectIDFromHex` when a handler
 takes the `{id}` path parameter.
 */
module ObjectIds {
  import opened Outcomes

  newtype byte = x: int | 0 <= x < 256

  type Bytes12 = s: seq<byte> | |s| == 12 witness [0, 0, 0, 0, 0, 0, 0, 0, 0, 0, 0, 0]

  datatype ObjectId = ObjectId(bytes: Bytes12) {

    /** The all-zero identifier, which the encoder treats as absent (`omitempty`). */
    predicate IsZero() {
      forall i | 0 <= i < 12 :: bytes[i] == 0
    }
  }

  const Zero: ObjectId := ObjectId([0, 0, 0, 0, 0, 0, 0, 0, 0, 0, 0, 0])

  predicate IsHexDigit(c: char) {
    ('0' <= c <= '9') || ('a' <= c <= 'f') || ('A' <= c <= 'F')
  }

  function HexValue(c: char): (d: nat)
    requires IsHexDigit(c)
    ensures d < 16
  {
    if '0' <= c <= '9' then (c as int) - ('0' as int)
    else if 'a' <= c <= 'f' then (c as int) - ('a' as int) + 10
    else (c as int) - ('A' as int) + 10
  }

  function HexChar(d: nat): (c: char)
    requires d < 16
    ensures IsHexDigit(c) && HexValue(c) == d
    ensures !('A' <= c <= 'F')
  {
    if d < 10 then ('0' as int + d) as char else ('a' as int + d - 10) as char
  }

  /** ASCII lower-casing of one hexadecimal digit, which leaves its value unchanged. */
  function LowerHex(c: char): (l: char)
    requires IsHexDigit(c)
    ensures IsHexDigit(l) && HexValue(l) == HexValue(c) && !('A' <= l <= 'F')
  {
    if 'A' <= c <= 'F' then ((c as int) - ('A' as int) + ('a' as int)) as char else c
  }

  /** The byte spelled by the digit pair starting at `2 * k`. */
  function PairValue(s: string, k: int): byte
    requires 0 <= k && 2 * k + 1 < |s| && IsHexDigit(s[2 * k]) && IsHexDigit(s[2 * k + 1])
  {
    (16 * HexValue(s[2 * k]) + HexValue(s[2 * k + 1])) as byte
  }

  /**
   `primitive.ObjectIDFromHex`: exactly 24 hexadecimal digits of either case,
   read two per byte; any other text is an error, here `None`.
   */
  function FromHex(s: string): (r: Option<ObjectId>)
    ensures r.Some? <==> |s| == 24 && forall i | 0 <= i < |s| :: IsHexDigit(s[i])
    ensures r.Some? ==> forall k | 0 <= k < 12 :: r.value.bytes[k] == PairValue(s, k)
  {
    if |s| != 24 || exists i | 0 <= i < |s| :: !IsHexDigit(s[i]) then None
    else Some(ObjectId(seq(12, k requires 0 <= k < 12 => PairValue(s, k))))
  }

  /** The `i`-th hexadecimal digit of an identifier: high nibble first. */
  function Nibble(id: ObjectId, i: int): (d: nat)
    requires 0 <= i < 24
    ensures d < 16
  {
    if i % 2 == 0 then id.bytes[i / 2] as int / 16 else id.bytes[i / 2] as int % 16
  }

  /** `ObjectID.Hex`: two lower-case hexadecimal digits per byte. */
  function Hex(id: ObjectId): (s: string)
    ensures |s| == 24
    ensures forall i | 0 <= i < 24 :: IsHexDigit(s[i]) && HexValue(s[i]) == Nibble(id, i) && !('A' <= s[i] <= 'F')
    ensures FromHex(s) == Some(id)
  {
    var s := seq(24, i requires 0 <= i < 24 => HexChar(Nibble(id, i)));
    assert forall i | 0 <= i < 24 :: IsHexDigit(s[i]);
    var back := seq(12, k requires 0 <= k < 12 => PairValue(s, k));
    forall k | 0 <= k < 12
      ensures back[k] == id.bytes[k]
    {
      PairOfNibbles(id, s, k);
    }
    assert back == id.bytes;
    s
  }

  /** The two digits printed for byte `k` read back as that byte. */
  lemma PairOfNibbles(id: ObjectId, s: string, k: int)
    requires |s| == 24 && 0 <= k < 12
    requires forall i | 0 <= i < 24 :: IsHexDigit(s[i]) && HexValue(s[i]) == Nibble(id, i)
    ensures PairValue(s, k) == id.bytes[k]
  {
    var b := id.bytes[k] as int;
    assert HexValue(s[2 * k]) == b / 16;
    assert HexValue(s[2 * k + 1]) == b % 16;
  }

  /** Reading an identifier and printing it again yields the input, lower-cased. */
  lemma HexOfParsed(s: string, id: ObjectId)
    requires FromHex(s) == Some(id)
    ensures Hex(id) == seq(24, i requires 0 <= i < 24 => LowerHex(s[i]))
  {
    var h := Hex(id);
    forall i | 0 <= i < 24
      ensures h[i] == LowerHex(s[i])
    {
      HexDigitRoundTrip(s, id, i);
    }
  }

  lemma HexDigitRoundTrip(s: string, id: ObjectId, i: int)
    requires FromHex(s) == Some(id) && 0 <= i < 24
    ensures Hex(id)[i] == LowerHex(s[i])
  {
    var k := i / 2;
    var j := i % 2;
    assert i == 2 * k + j && 0 <= j < 2;
    var hi, lo := HexValue(s[2 * k]), HexValue(s[2 * k + 1]);
    var b := id.bytes[k] as int;
    assert b == 16 * hi + lo;
    Nibbles(b, hi, lo);
    var h := Hex(id);
    var n := if j == 0 then hi else lo;
    assert Nibble(id, i) == n;
    assert HexValue(s[i]) == n;
    HexDigitsEqual(h[i], LowerHex(s[i]));
  }

  lemma Nibbles(b: int, hi: nat, lo: nat)
    requires lo < 16 && b == 16 * hi + lo
    ensures b / 16 == hi && b % 16 == lo
  {
  }

  /** Two lower-case hexadecimal digits with the same value are the same character. */
  lemma HexDigitsEqual(a: char, b: char)
    requires IsHexDigit(a) && IsHexDigit(b)
    requires !('A' <= a <= 'F') && !('A' <= b <= 'F')
    requires HexValue(a) == HexValue(b)
    ensures a == b
  {
  }
}

=== FILE: outcomes.dfy ===
/**
 The shapes in which the Go code reports results. A Go function returning
 `(T, error)` becomes a `Result<T>`, one returning a bare `error` becomes an
 `Outcome`, and a nil-able pointer that is not an error becomes an `Option`.
 Errors are kept as their text because the handlers tell them apart by
 comparing `err.Error()` with a literal.
 */
module Outcomes {

  datatype Option<+T> = None | Some(value: T) {

    /** The encapsulated value, or `default` when there is none. */
    function GetOr(default: T): T {
      match this
      case Some(v) => v
      case None => default
    }
  }

  /** A Go `(value, error)` pair where exactly one side is meaningful. */
  datatype Result<+T> = Ok(value: T) | Err(error: string) {

    predicate IsFailure() {
      Err?
    }

    function PropagateFailure<U>(): Result<U>
      requires Err?
    {
      Err(error)
    }

    function Extract(): T
      requires Ok?
    {
      value
    }
  }

  /** A Go function that returns only an `error`: nil, or an error with a text. */
  datatype Outcome = Pass | Fail(error: string)
}

=== FILE: pagination.dfy ===
/**
 The paging arithmetic the list, search and tag-filter handlers share
 (internal/delivery/handlers): reading the `page` query parameter, the
 previous and next page links, and for performances the page count and
 the first and last page links.
 */
module Pages {
  import opened Outcomes
  import Strconv
  import Int64

  /** Every list handler asks for pages of ten. */
  const PageSize: int := 10

  /**
   The `page` query parameter: absent (empty) means page 1; otherwise it
   must read as a decimal `int` of at least 1, and anything else is a bad
   request, here `None`.
   */
  function ParsePage(text: string): (r: Option<int>)
    ensures text == "" ==> r == Some(1)
    ensures text != "" ==> (r.Some? <==> Strconv.Atoi(text).Some? && Strconv.Atoi(text).value >= 1)
    ensures text != "" && r.Some? ==> Strconv.Atoi(text) == r
    ensures r.Some? ==> 1 <= r.value <= Int64.Max
  {
    if text == "" then Some(1)
    else match Strconv.Atoi(text)
      case None => None
      case Some(n) => if n < 1 then None else Some(n)
  }

  /** Every page number the handlers can emit reads back as itself. */
  lemma ParsePrintedPage(n: int)
    requires 1 <= n <= Int64.Max
    ensures ParsePage(Strconv.Itoa(n)) == Some(n)
  {
    Strconv.AtoiItoa(n);
  }

  /** Zero and negative page numbers are refused. */
  lemma ParseRejectsLowPages(n: int)
    requires Int64.Min <= n < 1
    ensures ParsePage(Strconv.Itoa(n)) == None
  {
    Strconv.AtoiItoa(n);
  }

  /** The pagination object of a list response; movie lists carry no first or last page. */
  datatype Pagination =
    | Basic(current: int, prev: Option<int>, next: Option<int>)
    | Bounded(current: int, prev: Option<int>, next: Option<int>, first: Option<int>, last: Option<int>)

  /** `prev_page`: the page before, null on the first page. */
  function PrevPage(page: int): (r: Option<int>)
    requires page >= 1
    ensures r.None? <==> page == 1
    ensures r.Some? ==> r.value + 1 == page
  {
    if page > 1 then Some(page - 1) else None
  }

  /**
   `next_page`: present exactly when the page came back full, whatever the
   total; computed in Go's `int`, so the page after the largest one wraps.
   */
  function NextPage(page: int, returned: int): (r: Option<int>)
    requires 1 <= page <= Int64.Max
    ensures r.Some? <==> returned == PageSize
    ensures r.Some? && page < Int64.Max ==> r.value == page + 1
    ensures r.Some? && page == Int64.Max ==> r.value == Int64.Min
  {
    if returned == PageSize then Some(Int64.Wrap(page + 1)) else None
  }

  /**
   `int(math.Ceil(float64(total) / float64(pageSize)))` with page size ten,
   as exact integer ceiling division.
   */
  function TotalPages(total: int): (n: int)
    ensures n * PageSize >= total
    ensures (n - 1) * PageSize < total
  {
    (total + PageSize - 1) / PageSize
  }

  /** The ceiling is the only page count with those two properties. */
  lemma TotalPagesUnique(total: int, n: int)
    requires n * PageSize >= total && (n - 1) * PageSize < total
    ensures n == TotalPages(total)
  {
    var m := TotalPages(total);
    assert n * PageSize > (m - 1) * PageSize;
    assert m * PageSize > (n - 1) * PageSize;
  }

  /** No documents, no pages; otherwise at least one. */
  lemma TotalPagesPositive(total: int)
    ensures TotalPages(total) > 0 <==> total > 0
    ensures total == 0 ==> TotalPages(total) == 0
  {
  }

  /** `first_page`: 1 when there is any page, null otherwise. */
  function FirstPage(totalPages: int): (r: Option<int>)
    ensures r.Some? <==> totalPages > 0
    ensures r.Some? ==> r.value == 1
  {
    if totalPages > 0 then Some(1) else None
  }

  /** `last_page`: the page count when there is any page, otherwise whatever `first_page` is. */
  function LastPage(totalPages: int): (r: Option<int>)
    ensures totalPages >= 1 ==> r == Some(totalPages)
    ensures totalPages < 1 ==> r == FirstPage(totalPages) && r.None?
  {
    if totalPages >= 1 then Some(totalPages) else FirstPage(totalPages)
  }

  /**
   What a movie pagination object says about the page it describes: which
   page it is, a previous page unless it is the first, and a next page
   exactly when the page came back full.
   */
  predicate DescribesPage(p: Pagination, page: int, returned: int) {
    && p.current == page
    && (p.prev.None? <==> page == 1)
    && (p.prev.Some? ==> p.prev.value == page - 1)
    && (p.next.Some? <==> returned == PageSize)
    && (p.next.Some? && page < Int64.Max ==> p.next.value == page + 1)
  }

  /** A performance pagination object also bounds the pages: first and last are present exactly when any page is. */
  predicate DescribesBoundedPage(p: Pagination, page: int, returned: int, totalPages: int) {
    && p.Bounded?
    && DescribesPage(p, page, returned)
    && (p.first.Some? <==> totalPages > 0)
    && (p.first.Some? ==> p.first.value == 1)
    && p.last == (if totalPages >= 1 then Some(totalPages) else None)
  }

  /** The movie handlers' pagination object. */
  function Links(page: int, returned: int): (p: Pagination)
    requires 1 <= page <= Int64.Max
    ensures p.Basic? && DescribesPage(p, page, returned)
  {
    Basic(page, PrevPage(page), NextPage(page, returned))
  }

  /** The performance handlers' pagination object, bounded by the page count. */
  function BoundedLinks(page: int, returned: int, totalPages: int): (p: Pagination)
    requires 1 <= page <= Int64.Max
    ensures DescribesBoundedPage(p, page, returned, totalPages)
  {
    Bounded(page, PrevPage(page), NextPage(page, returned), FirstPage(totalPages), LastPage(totalPages))
  }

  /**
   The next link does not look at the page count: a full last page still
   links to an empty page after it.
   */
  lemma NextPastLastPage(total: int)
    requires 0 < total <= Int64.Max && total % PageSize == 0
    ensures var last := TotalPages(total);
      BoundedLinks(last, PageSize, last).next == Some(last + 1)
  {
    var last := TotalPages(total);
    assert last * PageSize == total;
    assert last < total;
  }
}

=== FILE: scenarios.dfy ===
/**
 Handlers wired to the repositories over one store, as the running service
 has them: each lemma follows a request through the handler and the
 repository and states what the client receives.
 */
module Scenarios {
  import opened Outcomes
  import opened ObjectIds
  import opened Domain
  import opened Store
  import opened Pages
  import opened Http
  import MovieRepository
  import TheatreRepository
  import MovieHandlers
  import Strconv
  import TheatreHandlers

  /** `?page=2` */
  const SecondPage: Query := map["page" := ["2"]]

  lemma SecondPageParses()
    ensures ParsePage(Get(SecondPage, "page")) == Some(2)
  {
    assert Get(SecondPage, "page") == "2";
    ParsePrintedPage(2);
    assert Strconv.Itoa(2) == "2";
  }

  /** The second page of fifteen movies holds the last five, links back to page 1 and has no next page. */
  lemma SecondPageOfFifteenMovies(c: Collection)
    requires |c.docs| == 15
    requires forall i | 0 <= i < |c.docs| :: DecodeMovie(c.docs[i]).Ok?
    ensures var x := MovieHandlers.GetAllMoviesHandler(SecondPage, (p, ps) => MovieRepository.GetAllMovies(c, p, ps, None));
      && x.response.status == Some(OK)
      && |x.response.bodies| == 1
      && x.response.bodies[0].items == seq(5, k requires 0 <= k < 5 => DecodeMovie(c.docs[10 + k]).value)
      && x.response.bodies[0].pagination == Basic(2, Some(1), None)
  {
    SecondPageParses();
    MovieRepository.GetAllMoviesPage(c, 2, PageSize);
    var movies := MovieRepository.GetAllMovies(c, 2, PageSize, None).value;
    assert movies == seq(5, k requires 0 <= k < 5 => DecodeMovie(c.docs[10 + k]).value);
  }

  /**
   Updating a movie that is not stored: the repository's "movie not found"
   reaches the client as 500 with that text, never as 404.
   */
  lemma UpdateOfAbsentMovieIs500(c: Collection, id: ObjectId, req: MovieRequest)
    requires !Contains(c, id)
    ensures var x := MovieHandlers.UpdateMovieHandler(Hex(id), Some(req), (i, r) => MovieRepository.UpdateMovie(c, i, r, None, None).1);
      x.response == Response(Some(InternalServerError), [ErrorBody(InternalServerError, Detail("Error updating movie: movie not found"))])
  {
    MovieRepository.UpdateMovieAbsent(c, id, req, None);
    UpdateAnswer(MovieRepository.NotFound);
  }

  /** The text the movie update handler answers a "movie not found" with. */
  lemma UpdateAnswer(e: string)
    requires e == MovieRepository.NotFound
    ensures MovieHandlers.UpdateFailure(e) == Detail("Error updating movie: movie not found")
  {
    assert "Error updating movie: " + "movie not found" == "Error updating movie: movie not found";
  }

  /**
   Updating a stored movie with values it already has modifies nothing, so
   the client is told 500 "Error updating movie: movie not found".
   */
  lemma UnchangingUpdateOfStoredMovieIs500(c: Collection, i: int, id: ObjectId, m: Movie, req: MovieRequest)
    requires Valid(c) && 0 <= i < |c.docs| && HasId(c.docs[i], id)
    requires DecodeMovie(c.docs[i]) == Ok(m) && MovieRepository.Merge(m, req) == m
    ensures var x := MovieHandlers.UpdateMovieHandler(Hex(id), Some(req), (j, r) => MovieRepository.UpdateMovie(c, j, r, None, None).1);
      x.response == Response(Some(InternalServerError), [ErrorBody(InternalServerError, Detail("Error updating movie: movie not found"))])
  {
    MovieRepository.UpdateMovieNoOpIsNotFound(c, i, id, m, req, None);
    UpdateAnswer(MovieRepository.NotFound);
  }

  /** Deleting a movie that is not stored is 404 "Movie not found". */
  lemma DeleteOfAbsentMovieIs404(c: Collection, id: ObjectId)
    requires !Contains(c, id)
    ensures var x := MovieHandlers.DeleteMovie(Hex(id), j => MovieRepository.DeleteMovie(c, j, None).1);
      x.response == Response(Some(NotFound), [ErrorBody(NotFound, MovieNotFound)])
  {
  }

  /** Fetching a movie that is not stored is 404 "Movie not found". */
  lemma GetOfAbsentMovieIs404(c: Collection, id: ObjectId)
    requires !Contains(c, id)
    ensures var x := MovieHandlers.GetMovieHandler(Hex(id), j => MovieRepository.GetMovieByID(c, j, None));
      x.response == Response(Some(NotFound), [ErrorBody(NotFound, MovieNotFound)])
  {
  }

  /** Fetching a performance that is not stored: status 404, the error, and then `null`. */
  lemma GetOfAbsentPerformanceIs404ThenNull(c: Collection, id: ObjectId)
    requires !Contains(c, id)
    ensures var x := TheatreHandlers.GetPerformanceByID(Hex(id), j => TheatreRepository.GetPerformanceByID(c, j, None));
      x.response == Response(Some(NotFound), [ErrorBody(NotFound, PerformanceNotFound), Null])
  {
  }

  /** Unlike movies, updating a performance that is not stored is 404. */
  lemma UpdateOfAbsentPerformanceIs404(c: Collection, id: ObjectId, req: PerformanceRequest)
    requires !Contains(c, id)
    ensures var x := TheatreHandlers.UpdatePerformanceHandler(Hex(id), Some(req), (i, r) => TheatreRepository.UpdatePerformance(c, i, r, None, None).1);
      x.response == Response(Some(NotFound), [ErrorBody(NotFound, PerformanceNotFound)])
  {
    TheatreRepository.UpdatePerformanceAbsent(c, id, req, None);
  }

  /**
   Exactly ten performances: the one page there is comes back full, so it
   links to a second page although the last page is 1; that second page is
   empty and links nowhere.
   */
  lemma TenPerformances(c: Collection)
    requires |c.docs| == 10
    requires forall i | 0 <= i < |c.docs| :: DecodePerformance(c.docs[i]).Ok?
    ensures var x := TheatreHandlers.GetAllPerformances(map[], Ok(10), (p, ps) => TheatreRepository.GetAllPerformances(c, p, ps, None));
      && x.response.status == Some(OK)
      && |x.response.bodies[0].items| == 10
      && x.response.bodies[0].pagination == Bounded(1, None, Some(2), Some(1), Some(1))
    ensures var x := TheatreHandlers.GetAllPerformances(SecondPage, Ok(10), (p, ps) => TheatreRepository.GetAllPerformances(c, p, ps, None));
      && x.response.status == Some(OK)
      && x.response.bodies[0].items == []
      && x.response.bodies[0].pagination == Bounded(2, Some(1), None, Some(1), Some(1))
  {
    assert Get(map[], "page") == "";
    TheatreRepository.GetAllPerformancesPage(c, 1, PageSize);
    SecondPageParses();
    TheatreRepository.GetAllPerformancesPage(c, 2, PageSize);
  }
}

=== FILE: store.dfy ===
/**
 The document store collection the repositories talk to, reduced to an
 ordered sequence of documents (natural order: insertion order) and the
 driver calls the code makes: `Find` with skip and limit, `FindOne`,
 `InsertOne`, `UpdateOne` with `$set`, and `DeleteOne`. A failure of the
 driver itself (network, server) is not decided here: each call takes it
 as a `fault` parameter, and leaves the collection unchanged when it fails.
 */
module Store {
  import opened Outcomes
  import opened ObjectIds
  import opened Bson
  import Int64

  datatype Collection = Collection(docs: seq<Document>)

  const NegativeSkip: string := "skip must be non-negative"
  const DuplicateKey: string := "E11000 duplicate key error"

  predicate HasId(d: Document, id: ObjectId) {
    Id in d && d[Id] == ObjectIdValue(id)
  }

  /** The unique `_id` index: every document has an object identifier and no two share one. */
  predicate Valid(c: Collection) {
    && (forall i | 0 <= i < |c.docs| :: Id in c.docs[i] && c.docs[i][Id].ObjectIdValue?)
    && (forall i, j | 0 <= i < j < |c.docs| && Id in c.docs[i] && Id in c.docs[j] :: c.docs[i][Id] != c.docs[j][Id])
  }

  predicate Contains(c: Collection, id: ObjectId) {
    exists i | 0 <= i < |c.docs| :: HasId(c.docs[i], id)
  }

  // ---------------------------------------------------------------------------
  // Query filters

  /** The filter shapes the repositories build. */
  datatype Filter =
    | Everything                                  // bson.M{}
    | IdEquals(id: ObjectId)                      // {"_id": id}
    | In(field: Field, values: seq<string>)       // {field: {"$in": values}}
    | Regex(field: Field, pattern: string)        // {field: {"$regex": pattern, "$options": "i"}}
    | Or(left: Filter, right: Filter)             // {"$or": [left, right]}

  function LowerChar(c: char): char {
    if 'A' <= c <= 'Z' then ((c as int) - ('A' as int) + ('a' as int)) as char else c
  }

  function Fold(s: string): (r: string)
    ensures |r| == |s|
  {
    seq(|s|, i requires 0 <= i < |s| => LowerChar(s[i]))
  }

  /** `p` occurs in `t` as a contiguous piece. */
  predicate Occurs(p: string, t: string)
    decreases |t|
  {
    p <= t || (|t| > 0 && Occurs(p, t[1..]))
  }

  /** Case-insensitive search for the pattern as literal text, the model of a `$regex` with option `i`. */
  predicate ContainsFold(text: string, pattern: string) {
    Occurs(Fold(pattern), Fold(text))
  }

  /** `$in` on a value: a string equal to one of the values, or an array holding one. */
  predicate ValueIn(v: Value, values: seq<string>) {
    match v
    case Text(s) => s in values
    case TextArray(xs) => exists x | x in xs :: x in values
    case _ => false
  }

  /** `$regex` on a value: a string that matches, or an array with a matching element. */
  predicate ValueMatches(v: Value, pattern: string) {
    match v
    case Text(s) => ContainsFold(s, pattern)
    case TextArray(xs) => exists x | x in xs :: ContainsFold(x, pattern)
    case _ => false
  }

  predicate Matches(d: Document, f: Filter) {
    match f
    case Everything => true
    case IdEquals(id) => HasId(d, id)
    case In(field, values) => field in d && ValueIn(d[field], values)
    case Regex(field, pattern) => field in d && ValueMatches(d[field], pattern)
    case Or(l, r) => Matches(d, l) || Matches(d, r)
  }

  /** The documents a filter selects, in collection order. */
  function Matching(docs: seq<Document>, f: Filter): (r: seq<Document>)
    ensures |r| <= |docs|
  {
    if |docs| == 0 then []
    else
      var rest := Matching(docs[1..], f);
      if Matches(docs[0], f) then [docs[0]] + rest else rest
  }

  /** The selected documents are exactly the stored documents the filter matches. */
  lemma {:induction false} MatchingMembers(docs: seq<Document>, f: Filter)
    ensures forall d :: d in Matching(docs, f) <==> d in docs && Matches(d, f)
  {
    if |docs| > 0 {
      MatchingMembers(docs[1..], f);
      assert forall d :: d in docs <==> d == docs[0] || d in docs[1..];
    }
  }

  /** A one-document collection yields that document exactly when the filter selects it. */
  lemma MatchingSingle(d: Document, f: Filter)
    ensures Matching([d], f) == if Matches(d, f) then [d] else []
  {
  }

  /** Selection distributes over concatenation, so it keeps collection order and multiplicity. */
  lemma {:induction false} MatchingAppend(a: seq<Document>, b: seq<Document>, f: Filter)
    ensures Matching(a + b, f) == Matching(a, f) + Matching(b, f)
  {
    if |a| == 0 {
      assert a + b == b;
    } else {
      var ab := a + b;
      assert ab[0] == a[0] && ab[1..] == a[1..] + b;
      var head := if Matches(a[0], f) then [a[0]] else [];
      assert Matching(a, f) == head + Matching(a[1..], f);
      assert Matching(ab, f) == head + Matching(a[1..] + b, f);
      MatchingAppend(a[1..], b, f);
    }
  }

  lemma {:induction false} MatchingEverything(docs: seq<Document>)
    ensures Matching(docs, Everything) == docs
  {
    if |docs| > 0 {
      MatchingEverything(docs[1..]);
      assert docs == [docs[0]] + docs[1..];
    }
  }

  /** Index of the first document a filter selects. */
  function FirstMatch(docs: seq<Document>, f: Filter): (r: Option<nat>)
    ensures r.None? <==> forall i | 0 <= i < |docs| :: !Matches(docs[i], f)
    ensures r.Some? ==> r.value < |docs| && Matches(docs[r.value], f)
    ensures r.Some? ==> forall j | 0 <= j < r.value :: !Matches(docs[j], f)
  {
    if |docs| == 0 then None
    else if Matches(docs[0], f) then Some(0)
    else match FirstMatch(docs[1..], f)
      case None => None
      case Some(i) => Some(i + 1)
  }

  /** Under the unique index, the document with a given identifier is the only one `IdEquals` selects. */
  lemma FirstMatchById(c: Collection, i: int, id: ObjectId)
    requires Valid(c) && 0 <= i < |c.docs| && HasId(c.docs[i], id)
    ensures FirstMatch(c.docs, IdEquals(id)) == Some(i)
  {
  }

  // ---------------------------------------------------------------------------
  // Paged reads

  function Min(a: int, b: int): int {
    if a <= b then a else b
  }

  /** How many documents a `limit` lets through: zero means no limit, a negative limit its magnitude. */
  function Take(limit: int, available: nat): nat {
    if limit == 0 then available else if limit < 0 then -limit else limit
  }

  /** The repositories' `skip := (page - 1) * pageSize`, computed in Go's 64-bit `int`. */
  function Offset(page: int, pageSize: int): (skip: int)
    ensures Int64.InRange(skip)
    ensures Int64.InRange((page - 1) * pageSize) ==> skip == (page - 1) * pageSize
  {
    Int64.Wrap((page - 1) * pageSize)
  }

  /** Where page `page` (counted from 1) starts when pages hold `pageSize` elements. */
  function PageStart(page: int, pageSize: int): nat
    requires page >= 1 && pageSize >= 1
  {
    Int64.ProductNonNegative(page - 1, pageSize);
    (page - 1) * pageSize
  }

  /** When the start of the page fits in an `int`, the skip is that start. */
  lemma OffsetFits(page: int, pageSize: int)
    requires page >= 1 && pageSize >= 1 && PageStart(page, pageSize) <= Int64.Max
    ensures Offset(page, pageSize) == PageStart(page, pageSize)
  {
  }

  /** Skip then limit. */
  function Window<T>(xs: seq<T>, skip: nat, limit: int): (r: seq<T>)
    ensures skip >= |xs| ==> r == []
    ensures skip <= |xs| ==> |r| == Min(Take(limit, |xs|), |xs| - skip)
    ensures forall i | 0 <= i < |r| :: skip + i < |xs| && r[i] == xs[skip + i]
  {
    var start := Min(skip, |xs|);
    var end := Min(start + Take(limit, |xs|), |xs|);
    xs[start..end]
  }

  /** `Find(filter, options.Find().SetSkip(skip).SetLimit(limit))`. */
  function Find(c: Collection, f: Filter, skip: int, limit: int, fault: Option<string>): (r: Result<seq<Document>>)
    ensures fault.Some? ==> r == Err(fault.value)
    ensures r.Ok? <==> fault.None? && skip >= 0
    ensures r.Ok? ==> forall d | d in r.value :: d in c.docs && Matches(d, f)
    ensures r.Ok? && limit != 0 ==> |r.value| <= if limit < 0 then -limit else limit
    ensures r.Ok? ==> r.value == Window(Matching(c.docs, f), skip, limit)
  {
    if fault.Some? then Err(fault.value)
    else if skip < 0 then Err(NegativeSkip)
    else
      var selected := Matching(c.docs, f);
      var w := Window(selected, skip, limit);
      MatchingMembers(c.docs, f);
      assert forall d | d in w :: d in selected;
      Ok(w)
  }

  /** `FindOne(filter)`: the first selected document, `None` standing for `ErrNoDocuments`. */
  function FindOne(c: Collection, f: Filter, fault: Option<string>): (r: Result<Option<Document>>)
    ensures fault.Some? ==> r == Err(fault.value)
    ensures r == Ok(None) <==> fault.None? && forall i | 0 <= i < |c.docs| :: !Matches(c.docs[i], f)
    ensures r.Ok? && r.value.Some? ==> r.value.value in c.docs && Matches(r.value.value, f)
    ensures r.Ok? && r.value.Some? ==> exists i | 0 <= i < |c.docs| :: FirstMatch(c.docs, f) == Some(i) && r.value.value == c.docs[i]
  {
    if fault.Some? then Err(fault.value)
    else match FirstMatch(c.docs, f)
      case None => Ok(None)
      case Some(i) => Ok(Some(c.docs[i]))
  }

  /** A document appended under an identifier no stored document has is the one a lookup by that identifier finds. */
  lemma AppendedIsFound(c: Collection, doc: Document, id: ObjectId)
    requires !Contains(c, id) && HasId(doc, id)
    ensures FindOne(Collection(c.docs + [doc]), IdEquals(id), None) == Ok(Some(doc))
  {
    var docs := c.docs + [doc];
    assert forall j | 0 <= j < |c.docs| :: docs[j] == c.docs[j] && !HasId(c.docs[j], id);
    assert Matches(docs[|c.docs|], IdEquals(id));
    assert FirstMatch(docs, IdEquals(id)) == Some(|c.docs|);
  }

  /**
   Decoding every document a cursor yields, in order, stopping at the first
   that does not decode.
   */
  function DecodeAll<E>(docs: seq<Document>, decode: Document -> Result<E>): (r: Result<seq<E>>)
    ensures r.Ok? <==> forall i | 0 <= i < |docs| :: decode(docs[i]).Ok?
    ensures r.Ok? ==> |r.value| == |docs| && forall i | 0 <= i < |docs| :: r.value[i] == decode(docs[i]).value
    ensures r.Err? ==> exists i | 0 <= i < |docs| :: FirstFailure(docs, decode, i) && r.error == decode(docs[i]).error
  {
    if |docs| == 0 then Ok([])
    else match decode(docs[0])
      case Err(e) =>
        assert FirstFailure(docs, decode, 0);
        Err(e)
      case Ok(x) =>
        match DecodeAll(docs[1..], decode)
        case Err(e) =>
          var i :| 0 <= i < |docs[1..]| && FirstFailure(docs[1..], decode, i) && e == decode(docs[1..][i]).error;
          assert FirstFailure(docs, decode, i + 1);
          Err(e)
        case Ok(xs) => Ok([x] + xs)
  }

  /** `i` is where decoding first fails. */
  predicate FirstFailure<E>(docs: seq<Document>, decode: Document -> Result<E>, i: int) {
    0 <= i < |docs| && decode(docs[i]).Err? && forall j | 0 <= j < i :: decode(docs[j]).Ok?
  }

  /** The repositories' `for cursor.Next(...) { cursor.Decode(...); append(...) }` loop. */
  method ReadCursor<E>(docs: seq<Document>, decode: Document -> Result<E>) returns (r: Result<seq<E>>)
    ensures r.Ok? <==> forall i | 0 <= i < |docs| :: decode(docs[i]).Ok?
    ensures r.Ok? ==> |r.value| == |docs| && forall i | 0 <= i < |docs| :: r.value[i] == decode(docs[i]).value
    ensures r.Err? ==> exists i | 0 <= i < |docs| :: FirstFailure(docs, decode, i) && r.error == decode(docs[i]).error
    ensures r == DecodeAll(docs, decode)
  {
    var items: seq<E> := [];
    var i := 0;
    while i < |docs|
      invariant 0 <= i <= |docs|
      invariant |items| == i
      invariant forall k | 0 <= k < i :: decode(docs[k]).Ok? && items[k] == decode(docs[k]).value
    {
      match decode(docs[i]) {
        case Err(e) =>
          assert FirstFailure(docs, decode, i);
          FirstFailureUnique(docs, decode, i);
          return Err(e);
        case Ok(x) =>
          items := items + [x];
      }
      i := i + 1;
    }
    r := Ok(items);
    assert DecodeAll(docs, decode).value == items;
  }

  lemma FirstFailureUnique<E>(docs: seq<Document>, decode: Document -> Result<E>, i: int)
    requires FirstFailure(docs, decode, i)
    ensures DecodeAll(docs, decode) == Err(decode(docs[i]).error)
  {
    var r := DecodeAll(docs, decode);
    var k :| 0 <= k < |docs| && FirstFailure(docs, decode, k) && r.error == decode(docs[k]).error;
    assert k == i;
  }

  /** A paged query whose documents are then decoded into entities. */
  function FindDecoded<E>(c: Collection, f: Filter, skip: int, limit: int, decode: Document -> Result<E>,
                          fault: Option<string>): Result<seq<E>>
  {
    var docs :- Find(c, f, skip, limit, fault);
    DecodeAll(docs, decode)
  }

  /** Everything a paged query returns is the decoding of a stored document the filter selects. */
  lemma FindDecodedSound<E>(c: Collection, f: Filter, skip: int, limit: int, decode: Document -> Result<E>,
                            fault: Option<string>, k: int)
    requires FindDecoded(c, f, skip, limit, decode, fault).Ok?
    requires 0 <= k < |FindDecoded(c, f, skip, limit, decode, fault).value|
    ensures exists d | d in c.docs :: Matches(d, f) && decode(d) == Ok(FindDecoded(c, f, skip, limit, decode, fault).value[k])
  {
    var docs := Find(c, f, skip, limit, fault).value;
    assert docs[k] in docs;
  }

  /**
   `items` is the run of `docs` starting at `skip`, at most `limit` long,
   decoded in order: what one page of a query holds.
   */
  predicate DecodedRun<E(==)>(items: seq<E>, docs: seq<Document>, skip: nat, limit: nat, decode: Document -> Result<E>) {
    && |items| == (if skip >= |docs| then 0 else Min(limit, |docs| - skip))
    && forall k | 0 <= k < |items| :: skip + k < |docs| && decode(docs[skip + k]) == Ok(items[k])
  }

  /** Every document of the run of `docs` at `skip`, at most `limit` long, decodes. */
  predicate WindowDecodes<E>(docs: seq<Document>, skip: nat, limit: nat, decode: Document -> Result<E>) {
    forall k | skip <= k < |docs| && k < skip + limit :: decode(docs[k]).Ok?
  }

  /**
   A page succeeds exactly when the selected documents in its window all
   decode, and it is then the decoded window of the selected documents:
   only the documents of the page are read.
   */
  lemma FindDecodedPage<E>(c: Collection, f: Filter, skip: int, limit: int, decode: Document -> Result<E>)
    requires skip >= 0 && limit > 0
    ensures var r := FindDecoded(c, f, skip, limit, decode, None);
      && (r.Ok? <==> WindowDecodes(Matching(c.docs, f), skip, limit, decode))
      && (r.Ok? ==> DecodedRun(r.value, Matching(c.docs, f), skip, limit, decode))
  {
    var selected := Matching(c.docs, f);
    var docs := Window(selected, skip, limit);
    assert Find(c, f, skip, limit, None) == Ok(docs);
    assert forall i | 0 <= i < |docs| :: docs[i] == selected[skip + i];
    if WindowDecodes(selected, skip, limit, decode) {
      forall i | 0 <= i < |docs|
        ensures decode(docs[i]).Ok?
      {
        assert skip <= skip + i < |selected| && skip + i < skip + limit;
      }
    } else {
      var k :| skip <= k < |selected| && k < skip + limit && decode(selected[k]).Err?;
      assert docs[k - skip] == selected[k];
    }
  }

  /** With the empty filter, a page is the decoded window of the stored documents themselves. */
  lemma FindDecodedEverything<E>(c: Collection, skip: int, limit: int, decode: Document -> Result<E>)
    requires skip >= 0 && limit > 0
    ensures var r := FindDecoded(c, Everything, skip, limit, decode, None);
      && (r.Ok? <==> WindowDecodes(c.docs, skip, limit, decode))
      && (r.Ok? ==> DecodedRun(r.value, c.docs, skip, limit, decode))
  {
    MatchingEverything(c.docs);
    FindDecodedPage(c, Everything, skip, limit, decode);
  }

  // ---------------------------------------------------------------------------
  // Writes

  /**
   `InsertOne`: a document without `_id` gets the identifier the driver
   generated; the result is the stored `_id` (`InsertedID`). An `_id`
   already in use is a duplicate-key error.
   */
  function InsertOne(c: Collection, doc: Document, generated: ObjectId, fault: Option<string>): (r: (Collection, Result<Value>))
    ensures r.1.Err? ==> r.0 == c
    ensures r.1.Ok? ==> r.0.docs == c.docs + [doc[Id := r.1.value]]
    ensures r.1.Ok? && Id !in doc ==> r.1.value == ObjectIdValue(generated)
    ensures fault.None? && Id !in doc ==> (r.1.Ok? <==> !Contains(c, generated))
    ensures Valid(c) && Id !in doc ==> Valid(r.0)
  {
    if fault.Some? then (c, Err(fault.value))
    else
      var key := if Id in doc then doc[Id] else ObjectIdValue(generated);
      if exists i | 0 <= i < |c.docs| :: Id in c.docs[i] && c.docs[i][Id] == key then (c, Err(DuplicateKey))
      else (Collection(c.docs + [doc[Id := key]]), Ok(key))
  }

  datatype UpdateResult = UpdateResult(matchedCount: nat, modifiedCount: nat)

  /**
   `UpdateOne(filter, {"$set": assignments})` on the first selected document. A
   document the `$set` leaves as it was counts as matched but not modified.
   The caller never sets `_id`, which the store would refuse to change.
   */
  function UpdateOne(c: Collection, f: Filter, assignments: Document, fault: Option<string>): (r: (Collection, Result<UpdateResult>))
    requires Id !in assignments
    ensures r.1.Err? || r.1.value.modifiedCount == 0 ==> r.0 == c
    ensures r.1.Ok? ==> r.1.value.modifiedCount <= r.1.value.matchedCount <= 1
    ensures fault.None? ==> r.1.Ok?
    ensures r.1.Ok? ==> (r.1.value.matchedCount == 0 <==> forall i | 0 <= i < |c.docs| :: !Matches(c.docs[i], f))
    ensures r.1.Ok? && r.1.value.matchedCount == 1 ==>
      exists i | 0 <= i < |c.docs| :: FirstMatch(c.docs, f) == Some(i) && r.0.docs == c.docs[i := c.docs[i] + assignments]
    ensures r.1.Ok? ==> (r.1.value.modifiedCount == 1 <==> exists i | 0 <= i < |c.docs| :: FirstMatch(c.docs, f) == Some(i) && c.docs[i] + assignments != c.docs[i])
    ensures Valid(c) ==> Valid(r.0)
  {
    if fault.Some? then (c, Err(fault.value))
    else match FirstMatch(c.docs, f)
      case None => (c, Ok(UpdateResult(0, 0)))
      case Some(i) =>
        var updated := c.docs[i] + assignments;
        if updated == c.docs[i] then (c, Ok(UpdateResult(1, 0)))
        else
          var c' := Collection(c.docs[i := updated]);
          assert Valid(c) ==> Valid(c') by {
            if Valid(c) {
              assert forall k | 0 <= k < |c.docs| :: Id in c'.docs[k] && c'.docs[k][Id] == c.docs[k][Id];
            }
          }
          (c', Ok(UpdateResult(1, 1)))
  }

  /** `DeleteOne(filter)`: removes the first selected document; the result is `DeletedCount`. */
  function DeleteOne(c: Collection, f: Filter, fault: Option<string>): (r: (Collection, Result<nat>))
    ensures r.1.Err? || r.1.value == 0 ==> r.0 == c
    ensures fault.None? ==> r.1.Ok?
    ensures r.1.Ok? ==> r.1.value <= 1
    ensures r.1.Ok? ==> (r.1.value == 0 <==> forall i | 0 <= i < |c.docs| :: !Matches(c.docs[i], f))
    ensures r.1 == Ok(1) ==> exists i | 0 <= i < |c.docs| ::
      FirstMatch(c.docs, f) == Some(i) && Matches(c.docs[i], f) && r.0.docs == c.docs[..i] + c.docs[i + 1..]
    ensures Valid(c) ==> Valid(r.0)
  {
    if fault.Some? then (c, Err(fault.value))
    else match FirstMatch(c.docs, f)
      case None => (c, Ok(0))
      case Some(i) =>
        var c' := Collection(c.docs[..i] + c.docs[i + 1..]);
        if Valid(c) then RemovalKeepsValid(c, i); (c', Ok(1)) else (c', Ok(1))
  }

  /** Removing one document keeps every identifier present and unique. */
  lemma RemovalKeepsValid(c: Collection, i: int)
    requires Valid(c) && 0 <= i < |c.docs|
    ensures Valid(Collection(c.docs[..i] + c.docs[i + 1..]))
  {
    var rest := c.docs[..i] + c.docs[i + 1..];
    assert forall k | 0 <= k < |rest| :: rest[k] == c.docs[if k < i then k else k + 1];
  }

  /**
   Under the unique index, deleting by identifier removes exactly the
   document with that identifier and keeps every other one.
   */
  lemma DeleteOneById(c: Collection, id: ObjectId)
    requires Valid(c) && DeleteOne(c, IdEquals(id), None).1 == Ok(1)
    ensures var c' := DeleteOne(c, IdEquals(id), None).0;
      && !Contains(c', id)
      && forall d :: d in c'.docs <==> d in c.docs && !HasId(d, id)
  {
    var c' := DeleteOne(c, IdEquals(id), None).0;
    var i :| 0 <= i < |c.docs| && Matches(c.docs[i], IdEquals(id)) && c'.docs == c.docs[..i] + c.docs[i + 1..];
    RemovedMembers(c.docs, i, c'.docs);
    forall d
      ensures d in c'.docs <==> d in c.docs && !HasId(d, id)
    {
      if d in c'.docs {
        var j :| 0 <= j < |c.docs| && j != i && c.docs[j] == d;
        OnlyOneWithId(c, i, j, id);
      }
      if d in c.docs && !HasId(d, id) {
        var j :| 0 <= j < |c.docs| && c.docs[j] == d;
        assert j != i;
      }
    }
    assert !Contains(c', id) by {
      forall k | 0 <= k < |c'.docs|
        ensures !HasId(c'.docs[k], id)
      {
        assert c'.docs[k] in c'.docs;
      }
    }
  }

  /** Under the unique index, two positions holding the same identifier are the same position. */
  lemma OnlyOneWithId(c: Collection, i: int, j: int, id: ObjectId)
    requires Valid(c) && 0 <= i < |c.docs| && 0 <= j < |c.docs| && HasId(c.docs[i], id) && i != j
    ensures !HasId(c.docs[j], id)
  {
    if i > j {
      assert c.docs[j][Id] != c.docs[i][Id];
    }
  }

  /** The elements left after removing position `i` are those at every other position. */
  lemma RemovedMembers(xs: seq<Document>, i: int, ys: seq<Document>)
    requires 0 <= i < |xs| && ys == xs[..i] + xs[i + 1..]
    ensures forall x | x in ys :: exists j | 0 <= j < |xs| && j != i :: xs[j] == x
    ensures forall j | 0 <= j < |xs| && j != i :: xs[j] in ys
  {
    assert forall k | 0 <= k < |ys| :: ys[k] == xs[if k < i then k else k + 1];
    forall j | 0 <= j < |xs| && j != i
      ensures xs[j] in ys
    {
      assert ys[if j < i then j else j - 1] == xs[j];
    }
  }
}

=== FILE: strconv.dfy ===
/**
 Decimal integer text as Go's `strconv` package reads and writes it on a
 64-bit platform. The handlers read the `page` query parameter with
 `strconv.Atoi`.
 */
module Strconv {
  import opened Outcomes
  import Int64

  predicate IsDigit(c: char) {
    '0' <= c <= '9'
  }

  predicate AllDigits(s: string) {
    forall i | 0 <= i < |s| :: IsDigit(s[i])
  }

  function DigitValue(c: char): (d: nat)
    requires IsDigit(c)
    ensures d < 10
  {
    (c as int) - ('0' as int)
  }

  function DigitChar(d: nat): (c: char)
    requires d < 10
    ensures IsDigit(c) && DigitValue(c) == d
  {
    ('0' as int + d) as char
  }

  /** The number a run of decimal digits denotes, most significant digit first. */
  function DecimalValue(s: string): nat
    requires AllDigits(s)
  {
    if |s| == 0 then 0 else DecimalValue(s[..|s| - 1]) * 10 + DigitValue(s[|s| - 1])
  }

  /** The shortest decimal spelling of `n`: it reads back as `n` and has no leading zero. */
  function Digits(n: nat): (s: string)
    ensures |s| > 0 && AllDigits(s)
    ensures DecimalValue(s) == n
    ensures s[0] == '0' ==> n == 0
  {
    if n < 10 then [DigitChar(n)]
    else
      var prefix := Digits(n / 10);
      var s := prefix + [DigitChar(n % 10)];
      assert s[..|s| - 1] == prefix;
      s
  }

  /** `strconv.Itoa`: a minus sign for negative numbers, then the digits of the magnitude. */
  function Itoa(n: int): string {
    if n < 0 then "-" + Digits(-n) else Digits(n)
  }

  /**
   `strconv.Atoi`: an optional `+` or `-`, then one or more decimal digits
   (no underscores, no base prefix, no blanks), whose value must fit a
   64-bit `int`; anything else is a syntax or range error, here `None`.
   */
  function Atoi(s: string): (r: Option<int>)
    ensures r.Some? ==> Int64.InRange(r.value)
    ensures r.Some? ==> |s| > 0
  {
    var signed := |s| > 0 && (s[0] == '+' || s[0] == '-');
    var digits := if signed then s[1..] else s;
    if |digits| == 0 || !AllDigits(digits) then None
    else
      var magnitude: int := DecimalValue(digits);
      var n: int := if signed && s[0] == '-' then -magnitude else magnitude;
      if Int64.InRange(n) then Some(n) else None
  }

  /** Every 64-bit integer survives printing with `Itoa` and reading back with `Atoi`. */
  lemma AtoiItoa(n: int)
    requires Int64.InRange(n)
    ensures Atoi(Itoa(n)) == Some(n)
  {
    var s := Itoa(n);
    if n < 0 {
      assert s[0] == '-';
      assert s[1..] == Digits(-n);
    } else {
      var d := Digits(n);
      assert s == d;
      assert IsDigit(d[0]);
    }
  }

  /** A text with a character that is neither a digit nor a leading sign is rejected. */
  lemma AtoiRejectsNonDigit(s: string, i: int)
    requires 0 <= i < |s| && !IsDigit(s[i])
    requires i > 0 || (s[0] != '+' && s[0] != '-')
    ensures Atoi(s) == None
  {
    var signed := |s| > 0 && (s[0] == '+' || s[0] == '-');
    var digits := if signed then s[1..] else s;
    if signed {
      assert digits[i - 1] == s[i];
    } else {
      assert digits[i] == s[i];
    }
  }
}

=== FILE: theatre_handlers.dfy ===
/**
 The performance HTTP handlers (internal/delivery/handlers/theatre_handlers.go),
 modelled like the movie handlers. The list handlers first ask the service
 for the number of stored performances and derive the page count from it;
 that count and the tag filter are service operations without an
 implementation in the repository, so they are inputs here.
 */
module TheatreHandlers {
  import opened Outcomes
  import opened ObjectIds
  import opened Domain
  import opened Pages
  import opened Http
  import TheatreRepository
  import Int64

  /** A successful list answer under `key`: status 200 and one listing of exactly `items`, paginated and bounded. */
  predicate ListedPage(r: Response<Performance>, key: string, page: int, items: seq<Performance>, totalPages: int) {
    && r.status == Some(OK)
    && |r.bodies| == 1
    && r.bodies[0].Listing?
    && r.bodies[0].key == key
    && r.bodies[0].items == items
    && DescribesBoundedPage(r.bodies[0].pagination, page, |items|, totalPages)
  }

  predicate Failed(r: Response<Performance>, status: int, message: Message) {
    Single(r, status, ErrorBody(status, message))
  }

  function Listed(key: string, page: int, items: seq<Performance>, total: int): Response<Performance>
    requires 1 <= page <= Int64.Max
  {
    RespondWithJSON(Blank(), OK, Listing(key, items, BoundedLinks(page, |items|, TotalPages(total))))
  }

  /**
   `GetAllPerformances`: a bad `page` is refused before any call; then the
   count is asked for, then one page of ten; either error is 500.
   */
  function GetAllPerformances(q: Query, count: Result<int>, list: (int, int) -> Result<seq<Performance>>): (x: Exchange<Performance>)
    ensures ParsePage(Get(q, "page")).None? ==> Refused(x, BadRequest, InvalidRequestFormat)
    ensures ParsePage(Get(q, "page")).Some? && count.Err? ==>
      x.calls == [CountCall] && Failed(x.response, InternalServerError, InternalError)
    ensures ParsePage(Get(q, "page")).Some? && count.Ok? ==>
      var page := ParsePage(Get(q, "page")).value;
      var r := list(page, PageSize);
      && x.calls == [CountCall, ListCall(page, PageSize)]
      && (r.Err? ==> Failed(x.response, InternalServerError, InternalError))
      && (r.Ok? ==> ListedPage(x.response, "performances", page, r.value, TotalPages(count.value)))
  {
    match ParsePage(Get(q, "page"))
    case None => Exchange(RespondWithError(Blank(), BadRequest, InvalidRequestFormat), [])
    case Some(page) =>
      match count
      case Err(_) => Exchange(RespondWithError(Blank(), InternalServerError, InternalError), [CountCall])
      case Ok(total) =>
        var calls := [CountCall, ListCall(page, PageSize)];
        match list(page, PageSize)
        case Err(_) => Exchange(RespondWithError(Blank(), InternalServerError, InternalError), calls)
        case Ok(performances) => Exchange(Listed("performances", page, performances, total), calls)
  }

  /**
   `GetPerformanceByID`: an absent performance writes the 404 error and then,
   because the handler does not return there, also encodes the nil
   performance: the client sees status 404 and a body of the error followed
   by `null`.
   */
  function GetPerformanceByID(idText: string, get: ObjectId -> Result<Option<Performance>>): (x: Exchange<Performance>)
    ensures FromHex(idText).None? ==> Refused(x, BadRequest, InvalidPerformanceId)
    ensures FromHex(idText).Some? ==>
      var id := FromHex(idText).value;
      && x.calls == [GetCall(id)]
      && (get(id).Err? ==> Failed(x.response, InternalServerError, InternalError))
      && (get(id) == Ok(None) ==>
            x.response == Response(Some(NotFound), [ErrorBody(NotFound, PerformanceNotFound), Null]))
      && (get(id).Ok? && get(id).value.Some? ==> Single(x.response, OK, Entity(get(id).value.value)))
  {
    match FromHex(idText)
    case None => Exchange(RespondWithError(Blank(), BadRequest, InvalidPerformanceId), [])
    case Some(id) =>
      var calls := [GetCall(id)];
      match get(id)
      case Err(_) => Exchange(RespondWithError(Blank(), InternalServerError, InternalError), calls)
      case Ok(None) =>
        var w := RespondWithError(Blank(), NotFound, PerformanceNotFound);
        Exchange(RespondWithJSON(w, OK, Null), calls)
      case Ok(Some(p)) => Exchange(RespondWithJSON(Blank(), OK, Entity(p)), calls)
  }

  /** The 500 message of a failed create, worded as for movies. */
  function CreateFailure(error: string): Message {
    Detail("Error creating movie: " + error)
  }

  /** `CreatePerformanceHandler`: an undecodable body is 400; a created performance is 201 with it. */
  function CreatePerformanceHandler(body: Option<PerformanceRequest>, create: PerformanceRequest -> Result<Performance>): (x: Exchange<Performance>)
    ensures body.None? ==> Refused(x, BadRequest, InvalidRequestBody)
    ensures body.Some? ==>
      && x.calls == [CreateCall]
      && (create(body.value).Err? ==> Failed(x.response, InternalServerError, CreateFailure(create(body.value).error)))
      && (create(body.value).Ok? ==> Single(x.response, Created, Entity(create(body.value).value)))
  {
    match body
    case None => Exchange(RespondWithError(Blank(), BadRequest, InvalidRequestBody), [])
    case Some(req) =>
      match create(req)
      case Err(e) => Exchange(RespondWithError(Blank(), InternalServerError, CreateFailure(e)), [CreateCall])
      case Ok(p) => Exchange(RespondWithJSON(Blank(), Created, Entity(p)), [CreateCall])
  }

  /**
   `UpdatePerformanceHandler`: the service's "performance not found" is 404,
   every other error 500, success 200 with the updated performance.
   */
  function UpdatePerformanceHandler(idText: string, body: Option<PerformanceRequest>,
                                    update: (ObjectId, PerformanceRequest) -> Result<Performance>): (x: Exchange<Performance>)
    ensures FromHex(idText).None? ==> Refused(x, BadRequest, InvalidPerformanceId)
    ensures FromHex(idText).Some? && body.None? ==> Refused(x, BadRequest, InvalidRequestBody)
    ensures FromHex(idText).Some? && body.Some? ==>
      var id := FromHex(idText).value;
      var r := update(id, body.value);
      && x.calls == [UpdateCall(id)]
      && (r.Err? && r.error != TheatreRepository.NotFound ==> Failed(x.response, InternalServerError, InternalError))
      && (r.Ok? ==> Single(x.response, OK, Entity(r.value)))
    ensures x.response.status == Some(NotFound) <==>
      FromHex(idText).Some? && body.Some? && update(FromHex(idText).value, body.value) == Err(TheatreRepository.NotFound)
    ensures x.response.status == Some(NotFound) ==> Failed(x.response, NotFound, PerformanceNotFound)
  {
    match FromHex(idText)
    case None => Exchange(RespondWithError(Blank(), BadRequest, InvalidPerformanceId), [])
    case Some(id) =>
      match body
      case None => Exchange(RespondWithError(Blank(), BadRequest, InvalidRequestBody), [])
      case Some(req) =>
        var calls := [UpdateCall(id)];
        match update(id, req)
        case Err(e) =>
          if e == TheatreRepository.NotFound then Exchange(RespondWithError(Blank(), NotFound, PerformanceNotFound), calls)
          else Exchange(RespondWithError(Blank(), InternalServerError, InternalError), calls)
        case Ok(p) => Exchange(RespondWithJSON(Blank(), OK, Entity(p)), calls)
  }

  /** `DeletePerformance`: "performance not found" is 404, any other error 500, success 200. */
  function DeletePerformance(idText: string, delete: ObjectId -> Outcome): (x: Exchange<Performance>)
    ensures FromHex(idText).None? ==> Refused(x, BadRequest, InvalidPerformanceId)
    ensures FromHex(idText).Some? ==>
      var id := FromHex(idText).value;
      && x.calls == [DeleteCall(id)]
      && (delete(id) == Pass ==> Single(x.response, OK, StatusMessage(200, "Performance deleted successfully")))
      && (delete(id).Fail? && delete(id).error != TheatreRepository.NotFound ==>
            Failed(x.response, InternalServerError, InternalError))
    ensures x.response.status == Some(NotFound) <==>
      FromHex(idText).Some? && delete(FromHex(idText).value) == Fail(TheatreRepository.NotFound)
    ensures x.response.status == Some(NotFound) ==> Failed(x.response, NotFound, PerformanceNotFound)
  {
    match FromHex(idText)
    case None => Exchange(RespondWithError(Blank(), BadRequest, InvalidPerformanceId), [])
    case Some(id) =>
      var calls := [DeleteCall(id)];
      match delete(id)
      case Fail(e) =>
        if e == TheatreRepository.NotFound then Exchange(RespondWithError(Blank(), NotFound, PerformanceNotFound), calls)
        else Exchange(RespondWithError(Blank(), InternalServerError, InternalError), calls)
      case Pass => Exchange(RespondWithJSON(Blank(), OK, StatusMessage(200, "Performance deleted successfully")), calls)
  }

  /**
   `SearchPerfomancesHandler`: count first, then the search; the listing is
   keyed "movies", as in the movie handlers.
   */
  function SearchPerfomancesHandler(q: Query, count: Result<int>,
                                    search: (string, int, int) -> Result<seq<Performance>>): (x: Exchange<Performance>)
    ensures ParsePage(Get(q, "page")).None? ==> Refused(x, BadRequest, InvalidRequestFormat)
    ensures ParsePage(Get(q, "page")).Some? && count.Err? ==>
      x.calls == [CountCall] && Failed(x.response, InternalServerError, InternalError)
    ensures ParsePage(Get(q, "page")).Some? && count.Ok? ==>
      var page := ParsePage(Get(q, "page")).value;
      var r := search(Get(q, "query"), page, PageSize);
      && x.calls == [CountCall, SearchCall(Get(q, "query"), page, PageSize)]
      && (r.Err? ==> Failed(x.response, InternalServerError, InternalError))
      && (r.Ok? ==> ListedPage(x.response, "movies", page, r.value, TotalPages(count.value)))
  {
    match ParsePage(Get(q, "page"))
    case None => Exchange(RespondWithError(Blank(), BadRequest, InvalidRequestFormat), [])
    case Some(page) =>
      match count
      case Err(_) => Exchange(RespondWithError(Blank(), InternalServerError, InternalError), [CountCall])
      case Ok(total) =>
        var query := Get(q, "query");
        var calls := [CountCall, SearchCall(query, page, PageSize)];
        match search(query, page, PageSize)
        case Err(_) => Exchange(RespondWithError(Blank(), InternalServerError, InternalError), calls)
        case Ok(performances) => Exchange(Listed("movies", page, performances, total), calls)
  }

  /**
   `FilterPerformancesByTagsHandler`: the count is asked for before the tags
   are checked, so a request without tags is refused after that one call.
   */
  function FilterPerformancesByTagsHandler(q: Query, count: Result<int>,
                                           filter: (seq<string>, int, int) -> Result<seq<Performance>>): (x: Exchange<Performance>)
    ensures ParsePage(Get(q, "page")).None? ==> Refused(x, BadRequest, InvalidRequestFormat)
    ensures ParsePage(Get(q, "page")).Some? && count.Err? ==>
      x.calls == [CountCall] && Failed(x.response, InternalServerError, InternalError)
    ensures ParsePage(Get(q, "page")).Some? && count.Ok? && |Values(q, "tags")| == 0 ==>
      x.calls == [CountCall] && Failed(x.response, BadRequest, MissingTags)
    ensures ParsePage(Get(q, "page")).Some? && count.Ok? && |Values(q, "tags")| > 0 ==>
      var page := ParsePage(Get(q, "page")).value;
      var r := filter(Values(q, "tags"), page, PageSize);
      && x.calls == [CountCall, TagsCall(Values(q, "tags"), page, PageSize)]
      && (r.Err? ==> Failed(x.response, InternalServerError, InternalError))
      && (r.Ok? ==> ListedPage(x.response, "performances", page, r.value, TotalPages(count.value)))
  {
    var tags := Values(q, "tags");
    match ParsePage(Get(q, "page"))
    case None => Exchange(RespondWithError(Blank(), BadRequest, InvalidRequestFormat), [])
    case Some(page) =>
      match count
      case Err(_) => Exchange(RespondWithError(Blank(), InternalServerError, InternalError), [CountCall])
      case Ok(total) =>
        if |tags| == 0 then Exchange(RespondWithError(Blank(), BadRequest, MissingTags), [CountCall])
        else
          var calls := [CountCall, TagsCall(tags, page, PageSize)];
          match filter(tags, page, PageSize)
          case Err(_) => Exchange(RespondWithError(Blank(), InternalServerError, InternalError), calls)
          case Ok(performances) => Exchange(Listed("performances", page, performances, total), calls)
  }
}

=== FILE: theatre_repository.dfy ===
/**
 The performance repository over the document store
 (internal/repository/mongodb/theatre_repository.go). It follows the movie
 repository, with three differences: performances have no original name and
 no release date, a created performance keeps its tags, and search looks at
 the name and the description.
 */
module TheatreRepository {
  import opened Outcomes
  import opened ObjectIds
  import opened Bson
  import opened Domain
  import opened Store
  import Int64

  /** The error text the update and delete operations signal absence with; handlers compare against it. */
  const NotFound: string := "performance not found"
  const InsertedIdError: string := "error getting inserted performance ID"

  /** `GetAllPerformances`: every performance, one page at a time. */
  function GetAllPerformances(c: Collection, page: int, pageSize: int, fault: Option<string>): Result<seq<Performance>> {
    FindDecoded(c, Everything, Offset(page, pageSize), pageSize, DecodePerformance, fault)
  }

  /** Page `page` is the run of stored performances starting at `(page - 1) * pageSize`, at most `pageSize` long. */
  lemma GetAllPerformancesPage(c: Collection, page: int, pageSize: int)
    requires page >= 1 && pageSize >= 1 && PageStart(page, pageSize) <= Int64.Max
    ensures var r := GetAllPerformances(c, page, pageSize, None);
      && (r.Ok? <==> WindowDecodes(c.docs, PageStart(page, pageSize), pageSize, DecodePerformance))
      && (r.Ok? ==> DecodedRun(r.value, c.docs, PageStart(page, pageSize), pageSize, DecodePerformance))
  {
    OffsetFits(page, pageSize);
    FindDecodedEverything(c, PageStart(page, pageSize), pageSize, DecodePerformance);
  }

  /** `GetPerformanceByID`: `Ok(None)` when no document has the identifier, which is not an error. */
  function GetPerformanceByID(c: Collection, id: ObjectId, fault: Option<string>): (r: Result<Option<Performance>>)
    ensures fault.Some? ==> r == Err(fault.value)
    ensures r == Ok(None) <==> fault.None? && !Contains(c, id)
    ensures r.Ok? && r.value.Some? ==> r.value.value.id == id
    ensures r.Ok? && r.value.Some? ==> exists d | d in c.docs :: HasId(d, id) && DecodePerformance(d) == Ok(r.value.value)
  {
    match FindOne(c, IdEquals(id), fault)
    case Err(e) => Err(e)
    case Ok(None) => Ok(None)
    case Ok(Some(d)) =>
      match DecodePerformance(d)
      case Err(e) => Err(e)
      case Ok(p) => Ok(Some(p))
  }

  /**
   `CreatePerformance`: the response copies all eight request fields,
   tags included, and carries the identifier the store assigned.
   */
  function CreatePerformance(c: Collection, req: PerformanceRequest, generated: ObjectId, fault: Option<string>): (r: (Collection, Result<Performance>))
    ensures r.1.Ok? <==> fault.None? && !Contains(c, generated)
    ensures r.1.Ok? ==> r.1.value == Performance(generated, req.cover, req.name, req.description, req.duration,
                                                 req.age, req.categories, req.tags, req.media)
    ensures r.1.Err? ==> r.0 == c
    ensures Valid(c) ==> Valid(r.0)
    ensures r.1.Ok? ==> |r.0.docs| == |c.docs| + 1 && r.0.docs[..|c.docs|] == c.docs
  {
    var p := Performance(Zero, req.cover, req.name, req.description, req.duration,
                         req.age, req.categories, req.tags, req.media);
    var doc := EncodePerformance(p);
    assert Id !in doc;
    var (c', inserted) := InsertOne(c, doc, generated, fault);
    match inserted
    case Err(e) => (c', Err(e))
    case Ok(ObjectIdValue(id)) => (c', Ok(p.(id := id)))
    case Ok(_) => (c', Err(InsertedIdError))
  }

  /** Creating a performance and fetching it by the identifier it came back with yields the same performance. */
  lemma CreateThenGet(c: Collection, req: PerformanceRequest, generated: ObjectId)
    requires CreatePerformance(c, req, generated, None).1.Ok?
    ensures var (c', r) := CreatePerformance(c, req, generated, None);
      GetPerformanceByID(c', generated, None) == Ok(Some(r.value))
  {
    var (c', r) := CreatePerformance(c, req, generated, None);
    var p := Performance(Zero, req.cover, req.name, req.description, req.duration,
                         req.age, req.categories, req.tags, req.media);
    var stored := PerformanceFields(p)[Id := ObjectIdValue(generated)];
    assert c'.docs == c.docs + [stored];
    AppendedIsFound(c, stored, generated);
    DecodeStoredPerformance(p, generated);
  }

  /**
   The entry the `$set` of `UpdatePerformance` holds for a field: a string
   field only when it is not empty, a list only when it has elements. Keys
   a performance does not have are never set.
   */
  function Assigned(req: PerformanceRequest, f: Field): Option<Value> {
    match f
    case Cover => if req.cover != "" then Some(Text(req.cover)) else None
    case Name => if req.name != "" then Some(Text(req.name)) else None
    case Description => if req.description != "" then Some(Text(req.description)) else None
    case Duration => if req.duration != "" then Some(Text(req.duration)) else None
    case Age => if req.age != "" then Some(Text(req.age)) else None
    case Categories => if |req.categories| > 0 then Some(TextArray(req.categories)) else None
    case Tags => if |req.tags| > 0 then Some(TextArray(req.tags)) else None
    case Media => if |req.media| > 0 then Some(TextArray(req.media)) else None
    case _ => None
  }

  /** The `$set` document: exactly the assigned fields. */
  function UpdateFields(req: PerformanceRequest): (u: Document)
    ensures forall f :: f in u <==> Assigned(req, f).Some?
    ensures forall f | f in u :: u[f] == Assigned(req, f).value
  {
    map f | f in AllFields && Assigned(req, f).Some? :: Assigned(req, f).value
  }

  /** The partial-update semantics field by field: an empty request field keeps the stored one. */
  function Merge(p: Performance, req: PerformanceRequest): Performance {
    Performance(
      p.id,
      PreferText(req.cover, p.cover),
      PreferText(req.name, p.name),
      PreferText(req.description, p.description),
      PreferText(req.duration, p.duration),
      PreferText(req.age, p.age),
      PreferTexts(req.categories, p.categories),
      PreferTexts(req.tags, p.tags),
      PreferTexts(req.media, p.media))
  }

  /** Applying the `$set` to a stored performance and decoding gives the field-by-field merge. */
  lemma SetMerges(d: Document, p: Performance, req: PerformanceRequest)
    requires DecodePerformance(d) == Ok(p)
    ensures DecodePerformance(d + UpdateFields(req)) == Ok(Merge(p, req))
  {
    SetMergesTexts(d, p, req);
    SetMergesOthers(d, p, req);
    PerformanceDecodes(d + UpdateFields(req), Merge(p, req));
  }

  /** After the `$set` each string field reads as the given text when there was one, else as before. */
  lemma SetMergesTexts(d: Document, p: Performance, req: PerformanceRequest)
    requires DecodePerformance(d) == Ok(p)
    ensures var e := d + UpdateFields(req);
      && Readable(e, Cover) && StringAt(e, Cover) == PreferText(req.cover, p.cover)
      && Readable(e, Name) && StringAt(e, Name) == PreferText(req.name, p.name)
      && Readable(e, Description) && StringAt(e, Description) == PreferText(req.description, p.description)
      && Readable(e, Duration) && StringAt(e, Duration) == PreferText(req.duration, p.duration)
      && Readable(e, Age) && StringAt(e, Age) == PreferText(req.age, p.age)
  {
    var u := UpdateFields(req);
    SetText(d, u, Cover, p.cover, req.cover);
    SetText(d, u, Name, p.name, req.name);
    SetText(d, u, Description, p.description, req.description);
    SetText(d, u, Duration, p.duration, req.duration);
    SetText(d, u, Age, p.age, req.age);
  }

  /** After the `$set` the lists read as given when set, else as before; the identifier stays. */
  lemma SetMergesOthers(d: Document, p: Performance, req: PerformanceRequest)
    requires DecodePerformance(d) == Ok(p)
    ensures var e := d + UpdateFields(req);
      && Readable(e, Id) && IdAt(e) == p.id
      && Readable(e, Categories) && StringsAt(e, Categories) == PreferTexts(req.categories, p.categories)
      && Readable(e, Tags) && StringsAt(e, Tags) == PreferTexts(req.tags, p.tags)
      && Readable(e, Media) && StringsAt(e, Media) == PreferTexts(req.media, p.media)
  {
    var u := UpdateFields(req);
    SetTexts(d, u, Categories, p.categories, req.categories);
    SetTexts(d, u, Tags, p.tags, req.tags);
    SetTexts(d, u, Media, p.media, req.media);
    SetKeepsId(d, u);
  }

  /** When the merge keeps a performance as it was, every assigned field already holds the assigned value. */
  lemma AssignedAlreadyStored(d: Document, p: Performance, req: PerformanceRequest, f: Field)
    requires DecodePerformance(d) == Ok(p) && Merge(p, req) == p && Assigned(req, f).Some?
    ensures f in d && d[f] == Assigned(req, f).value
  {
  }

  /** The `$set` leaves a stored performance as it was exactly when the merge changes nothing. */
  lemma SetIsNoOp(d: Document, p: Performance, req: PerformanceRequest)
    requires DecodePerformance(d) == Ok(p)
    ensures d + UpdateFields(req) == d <==> Merge(p, req) == p
  {
    SetMerges(d, p, req);
    if Merge(p, req) == p {
      var u := UpdateFields(req);
      forall f | f in u
        ensures f in d && d[f] == u[f]
      {
        AssignedAlreadyStored(d, p, req, f);
      }
      assert d + u == d;
    }
  }

  /**
   `UpdatePerformance`: a partial update by identifier. When the store
   reports no modified document the result is the "performance not found"
   error; otherwise the stored performance is fetched again and returned.
   */
  function UpdatePerformance(c: Collection, id: ObjectId, req: PerformanceRequest, updateFault: Option<string>,
                             fetchFault: Option<string>): (r: (Collection, Result<Performance>))
    ensures r.1.Ok? ==> r.1.value.id == id
    ensures r.1.Ok? ==> GetPerformanceByID(r.0, id, None) == Ok(Some(r.1.value))
    ensures Valid(c) ==> Valid(r.0)
  {
    var (c', res) := UpdateOne(c, IdEquals(id), UpdateFields(req), updateFault);
    match res
    case Err(e) => (c', Err(e))
    case Ok(counts) =>
      if counts.modifiedCount == 0 then (c', Err(NotFound))
      else
        assert Contains(c', id) by {
          var i :| 0 <= i < |c.docs| && FirstMatch(c.docs, IdEquals(id)) == Some(i)
                   && c'.docs == c.docs[i := c.docs[i] + UpdateFields(req)];
          assert HasId(c'.docs[i], id);
        }
        match GetPerformanceByID(c', id, fetchFault)
        case Err(e) => (c', Err(e))
        case Ok(None) => assert false; (c', Err(NotFound))
        case Ok(Some(p)) => (c', Ok(p))
  }

  /** Updating an identifier no document has reports "performance not found" and changes nothing. */
  lemma UpdatePerformanceAbsent(c: Collection, id: ObjectId, req: PerformanceRequest, fetchFault: Option<string>)
    requires !Contains(c, id)
    ensures UpdatePerformance(c, id, req, None, fetchFault) == (c, Err(NotFound))
  {
  }

  /**
   Updating a stored, decodable performance with a request that changes it
   returns the merge, stores it in place, and leaves every other document
   as it was.
   */
  lemma UpdatePerformanceMerges(c: Collection, i: int, id: ObjectId, p: Performance, req: PerformanceRequest)
    requires Valid(c) && 0 <= i < |c.docs| && HasId(c.docs[i], id)
    requires DecodePerformance(c.docs[i]) == Ok(p) && Merge(p, req) != p
    ensures var (c', r) := UpdatePerformance(c, id, req, None, None);
      && r == Ok(Merge(p, req))
      && |c'.docs| == |c.docs|
      && DecodePerformance(c'.docs[i]) == Ok(Merge(p, req))
      && forall j | 0 <= j < |c.docs| && j != i :: c'.docs[j] == c.docs[j]
  {
    FirstMatchById(c, i, id);
    SetIsNoOp(c.docs[i], p, req);
    SetMerges(c.docs[i], p, req);
    var c' := UpdateOne(c, IdEquals(id), UpdateFields(req), None).0;
    assert c'.docs == c.docs[i := c.docs[i] + UpdateFields(req)];
    FirstMatchById(c', i, id);
  }

  /**
   An update that would leave the stored performance as it was modifies no
   document, so the existing performance is reported as "performance not found".
   */
  lemma UpdatePerformanceNoOpIsNotFound(c: Collection, i: int, id: ObjectId, p: Performance, req: PerformanceRequest,
                                        fetchFault: Option<string>)
    requires Valid(c) && 0 <= i < |c.docs| && HasId(c.docs[i], id)
    requires DecodePerformance(c.docs[i]) == Ok(p) && Merge(p, req) == p
    ensures UpdatePerformance(c, id, req, None, fetchFault) == (c, Err(NotFound))
  {
    FirstMatchById(c, i, id);
    SetIsNoOp(c.docs[i], p, req);
  }

  /** `DeletePerformance`: "performance not found" when no document was deleted. */
  function DeletePerformance(c: Collection, id: ObjectId, fault: Option<string>): (r: (Collection, Outcome))
    ensures fault.Some? ==> r == (c, Fail(fault.value))
    ensures fault.None? ==> (r.1 == Pass <==> Contains(c, id))
    ensures fault.None? && !Contains(c, id) ==> r == (c, Fail(NotFound))
    ensures r.1 == Pass ==> |r.0.docs| == |c.docs| - 1
    ensures Valid(c) ==> Valid(r.0)
  {
    var (c', res) := DeleteOne(c, IdEquals(id), fault);
    match res
    case Err(e) => (c', Fail(e))
    case Ok(n) => if n == 0 then (c', Fail(NotFound)) else (c', Pass)
  }

  /** A successful delete removes exactly the document with the identifier and keeps every other one. */
  lemma DeletePerformanceRemovesExactly(c: Collection, id: ObjectId)
    requires Valid(c) && DeletePerformance(c, id, None).1 == Pass
    ensures var c' := DeletePerformance(c, id, None).0;
      && !Contains(c', id)
      && forall d :: d in c'.docs <==> d in c.docs && !HasId(d, id)
  {
    DeleteOneById(c, id);
  }

  /** The `$or` of two case-insensitive regular expressions `SearchPerformances` builds. */
  function SearchFilter(query: string): Filter {
    Or(Regex(Name, query), Regex(Description, query))
  }

  /** `SearchPerformances`: performances whose name or description matches the query, one page at a time. */
  function SearchPerformances(c: Collection, query: string, page: int, pageSize: int, fault: Option<string>): Result<seq<Performance>> {
    FindDecoded(c, SearchFilter(query), Offset(page, pageSize), pageSize, DecodePerformance, fault)
  }

  /**
   Which decodable documents the search selects. For a non-empty query: the
   performances whose name or description contains the query, ignoring case. For
   the empty query, which the handler sends when `query` is absent: those
   where either key holds a string at all, since an empty pattern matches
   every string but not a missing key or a null.
   */
  lemma SearchSelects(d: Document, p: Performance, query: string)
    requires DecodePerformance(d) == Ok(p)
    ensures query != "" ==>
      (Matches(d, SearchFilter(query)) <==> ContainsFold(p.name, query) || ContainsFold(p.description, query))
    ensures query == "" ==>
      (Matches(d, SearchFilter(query)) <==> HoldsText(d, Name) || HoldsText(d, Description))
  {
    if query != "" {
      assert !ContainsFold("", query) by {
        assert |Fold(query)| > 0;
      }
    }
  }

  /** Every performance the repository writes holds a name, so the empty query selects all of them. */
  lemma EmptySearchSelectsEncoded(p: Performance)
    ensures Matches(EncodePerformance(p), SearchFilter(""))
  {
    assert Name in EncodePerformance(p) && EncodePerformance(p)[Name] == Text(p.name);
    assert Fold("") <= Fold(p.name);
  }

  /**
   Page `page` of a search is the run of stored performances the search selects,
   in collection order, from `(page - 1) * pageSize` on and at most
   `pageSize` of them; it fails exactly when one of those does not decode.
   */
  lemma SearchPerformancesPage(c: Collection, query: string, page: int, pageSize: int)
    requires page >= 1 && pageSize >= 1 && PageStart(page, pageSize) <= Int64.Max
    ensures var r := SearchPerformances(c, query, page, pageSize, None);
      var selected := Matching(c.docs, SearchFilter(query));
      && (r.Ok? <==> WindowDecodes(selected, PageStart(page, pageSize), pageSize, DecodePerformance))
      && (r.Ok? ==> DecodedRun(r.value, selected, PageStart(page, pageSize), pageSize, DecodePerformance))
  {
    OffsetFits(page, pageSize);
    FindDecodedPage(c, SearchFilter(query), PageStart(page, pageSize), pageSize, DecodePerformance);
  }

  /** Every performance a search returns has the query in its name or description. */
  lemma SearchPerformancesSound(c: Collection, query: string, page: int, pageSize: int, fault: Option<string>, k: int)
    requires SearchPerformances(c, query, page, pageSize, fault).Ok?
    requires 0 <= k < |SearchPerformances(c, query, page, pageSize, fault).value|
    ensures var p := SearchPerformances(c, query, page, pageSize, fault).value[k];
      ContainsFold(p.name, query) || ContainsFold(p.description, query)
  {
    var p := SearchPerformances(c, query, page, pageSize, fault).value[k];
    FindDecodedSound(c, SearchFilter(query), Offset(page, pageSize), pageSize, DecodePerformance, fault, k);
    var d :| d in c.docs && Matches(d, SearchFilter(query)) && DecodePerformance(d) == Ok(p);
    SearchSelects(d, p, query);
    if query == "" {
      assert Fold(query) <= Fold(p.name);
    }
  }
}
